=== FILE: README.md ===
# Invest: paper-trading bots and dashboard views, modelled in Dafny

The repository runs a daily paper-trading bot over a fixed universe of US
stocks and ETFs and serves its trade history through a small dashboard.
This project models the decision logic of that system:

* **The fee-aware bot** (`investment_bot.py`).
  * A five-row-lookahead backtest measures how often each side's calls were right.
  * A rule scorer adds 25 points per rule from RSI, EMA20/EMA50 and MACD.
  * The scores are weighted by the backtested accuracies and turned into BUY, SELL or HOLD with an integer confidence.
  * A paper-trading step applies the decision. It uses a 30-point confidence threshold, a 2% risk budget, fractional stocks and whole-unit ETFs, and a 0.1% broker fee folded into the average cost.
  * At the end of the run a valuation of the open positions produces a one-row summary.
* **The earlier variant** (`bot_investimentos.py`).
  * A graded RSI rule plus a Bollinger-band rule, where an undefined indicator disables only its own rule.
  * Whole-share trading without fees.
  * A state file with per-key defaults.
  * A daily report sorted by confidence and appended to a cumulative history.
* **The dashboard's trade-log views** (`app.py`).
  * The last 100 trades.
  * The sorted list of traded assets.
  * The per-asset open/close profit curve, cut to 50 points.
  * The per-asset "last row of each day" rollup, cut to 30 days.

Everything is stated over exact reals and sequences:

* NaN indicators are `Option.None`.
* Market data, files and clocks are parameters.
* Python's `round` (half to even), `int()` (truncation) and `//` (floor) are written out in module `Numeric`.

| file | module | models |
|---|---|---|
| wrappers.dfy | Wrappers | `Option` for NaN, missing keys and failed downloads |
| numeric.dfy | Numeric | Python's `round`, `int`, `//` on reals, and their error bounds |
| records.dfy | Records | decisions, signals, trade-history rows |
| signals.dfy | Signals | unweighted rule scores and the weighted decision |
| backtest.dfy | Backtest | the lookahead backtest and its accuracies |
| portfolio.dfy | Portfolio | positions, sizing, fees, BUY/SELL execution, state file |
| valuation.dfy | Valuation | detail rows and the summary of the final valuation |
| run.dfy | Run | the per-asset pipeline and the main loop |
| legacy_scoring.dfy | LegacyScoring | graded scorer and decision of the earlier variant |
| legacy_portfolio.dfy | LegacyPortfolio | whole-share trading and the state file of the variant |
| legacy_report.dfy | LegacyReport | the confidence-sorted report and the history append |
| legacy_run.dfy | LegacyRun | the variant's main loop and its whole day |
| lexicographic.dfy | Lexicographic | Python's string order and sorted unique lists |
| trade_log.dfy | TradeLog | tail truncation, per-asset filter, traded assets |
| performance.dfy | Performance | the open/close profit state machine |
| daily.dfy | DailyHistory | the per-day rollup of an asset's rows |

## Model

| member | source | states |
|---|---|---|
| Numeric.RoundHalfEven | investment_bot.py:206 | the rounded value is within half a unit of its argument, and never negative for a non-negative argument |
| Numeric.Trunc | investment_bot.py:184-187 | `int()` of a score is its integer part: the floor for non-negative values, rounding toward zero below |
| Numeric.FloorDiv | investment_bot.py:210 | `a // b` with a positive divisor is the integer q with q·b ≤ a < (q+1)·b |
| Numeric.Round | investment_bot.py:206 | `round(x, k)`, also used for the stored position (lines 223-224) and the saved cash (line 255), lies within 0.5·10^-k of x and is never negative for a non-negative x |
| Numeric.RoundCentsAtLeastOneCent | investment_bot.py:206-207 | rounding to cents gives at least one cent exactly when the value is above half a cent, because half a cent rounds to the even neighbour 0 |
| Numeric.RoundFixedPoint | investment_bot.py:255 | rounding to k decimals leaves x unchanged exactly when x is a whole number of 10^-k units |
| Signals.RuleScores | investment_bot.py:164-177 | each side gets 0, 25, 50 or 75 points |
| Signals.RuleScoresAreVotes | investment_bot.py:164-177 | the sequential scorer equals the sum of the rule table taken one rule at a time: RSI below 30 votes buy and above 70 votes sell; EMA20 above EMA50 votes buy, otherwise sell; MACD above its signal line votes buy, otherwise sell |
| Signals.RuleScoresTotal | investment_bot.py:164-177 | the two sides sum to 75 when RSI is below 30 or above 70, and to 50 otherwise |
| Signals.WeightedBound | investment_bot.py:179-180 | a score in [0,75] weighted by an accuracy in [0,1] stays in [0,75] |
| Signals.Decide | investment_bot.py:157-190 | an undefined RSI/EMA20/EMA50/MACD skips the asset; otherwise BUY iff weighted buy > weighted sell, SELL iff the reverse, HOLD with confidence 0 on a tie; confidence is the truncated winning score, within [0,75] for accuracies in [0,1] |
| Backtest.Classify | investment_bot.py:76-105 | an incomplete row or a score tie is no call; a buy call wins iff the close five rows later is higher, a sell call iff it is lower |
| Backtest.TallyUpTo | investment_bot.py:72-105 | over the first n rows, wins never exceed calls on either side, and at most one call is made per row |
| Backtest.Sessions | investment_bot.py:72 | only rows i with i+5 inside the history are scored |
| Backtest.Accuracy | investment_bot.py:107-108 | an accuracy lies in [0,1]; it is exactly 0.5 for a side with no calls, and wins/calls otherwise |
| Backtest.BacktestAccuracies | investment_bot.py:69-110 | both accuracies lie in [0,1]; a side with no calls, or a history of at most five rows, gives 0.5 |
| Backtest.CountCalls | investment_bot.py:70-105 | the counting loop computes exactly the tally of every row that has a row five later, with wins ≤ calls |
| Backtest.ClassifyAgrees | investment_bot.py:80-105 | the loop body's nested conditions change the counters by exactly one row's classification |
| Backtest.RunBacktest | investment_bot.py:69-110 | the accuracies the backtest returns are the counted wins over the counted calls, each within [0,1] |
| Backtest.TallyUpToOnlyReadsCalls | investment_bot.py:72-78 | rows that cannot make a call, and the last five rows, influence the tally only through their close |
| Backtest.BacktestOnlyReadsCalls | investment_bot.py:72-78 | two histories that agree on every close and on every row a call can be made from give the same accuracies |
| Portfolio.Dedup | investment_bot.py:122 | the keys of a dictionary built from a list: each element once, no others |
| Portfolio.FreshState | investment_bot.py:120-122 | a first run starts valid, with 10000 in cash and a flat position for exactly the assets of the universe, in universe order with duplicates dropped |
| Portfolio.IndexOf | investment_bot.py:192 | the lookup finds the asset's entry, or reports that no entry has that key |
| Portfolio.BuyQuantity | investment_bot.py:199-210 | a BUY quantity is never negative for a non-negative budget, and a positive one is at least 0.01 |
| Portfolio.FractionalUnits | investment_bot.py:204-208 | a fractional quantity is 0 or at least 0.01 and within 0.005 of budget/price; it is 0 exactly when budget/price is at most 0.005 |
| Portfolio.WholeUnits | investment_bot.py:209-210 | an ETF quantity is the whole number q with q·price ≤ budget < (q+1)·price |
| Portfolio.CostWithFeeFactor | investment_bot.py:212-213 | the total cost is quantity·price·1.001 |
| Portfolio.Blend | investment_bot.py:217-221 | the new quantity is the sum, and quantity × average price grows by exactly the fee-inclusive cost |
| Portfolio.RepeatedBuysAverage | investment_bot.py:217-221 | two lots bought into a flat position average to their total cost over their total quantity |
| Portfolio.StoredBlendBounds | investment_bot.py:222-225 | the stored quantity is within 0.00005 of the exact sum, and the stored average price keeps the cost basis within half a cent per unit |
| Portfolio.StoredBlendValid | investment_bot.py:215-225 | a lot of at least 0.01 units at a non-negative cost leaves a valid position valid and open |
| Portfolio.ApplyBuy | investment_bot.py:199-225 | a sized BUY executes iff the quantity is positive and the fee-inclusive cost is covered; then cash drops by that cost and stays ≥ 0, and only this asset's entry becomes the stored blend; otherwise nothing changes |
| Portfolio.ApplySell | investment_bot.py:227-231 | a SELL of a held position adds q·p·0.999 to cash (so cash grows when the price is positive; a zero price is accepted) and resets only that entry to zero quantity and zero average price; a SELL of a flat position changes nothing; validity is kept |
| Portfolio.Execute | investment_bot.py:198-231 | a trade changes no other asset's entry, keeps the keys and their order and keeps cash ≥ 0, positions ≥ 0 and flat positions at zero cost; a HOLD or a BUY below confidence 30 changes nothing, and a SELL is the liquidation above |
| Portfolio.BuyKeepsValid | investment_bot.py:199-225 | a BUY keeps a valid state valid |
| Portfolio.IndexOfSameAssets | investment_bot.py:192 | the lookup depends only on the keys and their order |
| Portfolio.BuyOutcome | investment_bot.py:198-225 | a BUY executes only with confidence ≥ 30, a positive quantity and the cost covered; then cash drops by the cost and the position becomes the stored blend; otherwise the state is unchanged |
| Portfolio.SellExample | investment_bot.py:227-231 | ten units closed at 120 add 1198.8 and flatten the position |
| Portfolio.Save | investment_bot.py:253-257 | the saved cash is within half a cent of the cash and non-negative when the cash is; the positions are saved as they are |
| Portfolio.Load | investment_bot.py:115-122 | a missing state file gives the fresh state; an existing one gives its cash and positions |
| Portfolio.SaveLoadRoundTrip | investment_bot.py:253-257 | reloading the saved state gives the positions unchanged and the cash rounded to cents; it is identical iff the cash was whole cents; validity survives |
| Valuation.OpenHoldings | investment_bot.py:277-279 | the valuation visits exactly the entries whose quantity is not zero |
| Valuation.SkippingFlatIsExact | investment_bot.py:277-287 | skipping flat entries does not change the market value |
| Valuation.DetailOf | investment_bot.py:282-299 | a detail row reports the asset, its class (stock when listed as one, otherwise ETF) and the position as held, and the price, invested value, current value, profit and return percentage each to within half a cent of the exact figure |
| Valuation.Details | investment_bot.py:277-301 | one detail row per open position in portfolio order, row k being exactly the detail row (`DetailOf`) of the k-th open position at its latest price, or failure exactly when an open position has a zero cost basis (the return percentage divides by zero) |
| Valuation.DescribedRowsReport | investment_bot.py:277-299 | every row of the details report gives its open position's asset, class, quantity and average price, and its price, invested value, current value, profit and return percentage each within half a cent |
| Valuation.Valuate | investment_bot.py:273-308 | the detail rows report the open positions in order at their latest prices; the summary gives cash, Σ quantity·average price and cash + Σ quantity·latest price over open positions, each to within half a cent; total profit is portfolio value − 10000 |
| Run.ProcessAsset | investment_bot.py:129-248 | one asset: a short history, an undefined indicator or a missing key leaves the state as it was and logs nothing; otherwise the logged decision and confidence are the backtest-weighted verdict on the latest row, the new state is that verdict's paper trade at the latest close, only this asset's entry can change, validity is kept, and the row carries the asset, its class, the close to cents and a confidence in [0,75] |
| Run.LoggedAssetsSameKeys | investment_bot.py:192 | which assets get logged depends only on the portfolio's keys |
| Run.RunAll | investment_bot.py:124-248 | the main loop keeps the state valid and the keys unchanged and leaves unvisited assets alone; the log's asset column is exactly the inputs with a long enough history, a complete latest row and a portfolio key, in input order, each with confidence in [0,75] |
| LegacyScoring.GradedScores | bot_investimentos.py:101-131 | the buy and sell confidences are never negative |
| LegacyScoring.StepAddsContribution | bot_investimentos.py:105-131 | each of the four checks adds exactly the points its rule gives on its own |
| LegacyScoring.ScoresAreSumOfRules | bot_investimentos.py:101-131 | the scorer equals the sum of the four rules taken independently |
| LegacyScoring.UndefinedDisablesOnlyItsRule | bot_investimentos.py:105-131 | making a rule's indicators undefined removes exactly that rule's points; every other rule scores as before |
| LegacyScoring.RsiGrade | bot_investimentos.py:105-110 | for RSI in [0,100] the graded rule gives buy points in (0,25] below 30, sell points in (0,25] above 70, and nothing in between |
| LegacyScoring.BollingerBreach | bot_investimentos.py:126-131 | 25 to buy below the lower band, 25 to sell above the upper band, nothing inside |
| LegacyScoring.LegacyDecide | bot_investimentos.py:133-142 | BUY iff buy > sell and buy > 0, SELL symmetrically, HOLD with 0 otherwise; confidence is min(floor(score), 100), in [0,100]; the "> 0" guard never changes the outcome |
| LegacyScoring.AllBuyRulesExample | bot_investimentos.py:101-142 | RSI 25 with the three other rules on the buy side scores 475/6 and decides BUY at 79 |
| LegacyPortfolio.ZeroHoldings | bot_investimentos.py:69 | the default portfolio has every asset of the universe, each at quantity 0 |
| LegacyPortfolio.LegacyBuyQuantity | bot_investimentos.py:146-147 | the quantity is the largest whole q with q·close ≤ 0.02·cash |
| LegacyPortfolio.LegacyTrade | bot_investimentos.py:144-153 | a trade keeps the keys, changes no other asset, conserves cash + holding·close and keeps cash and holdings non-negative; a HOLD, a BUY with no cash and a BUY too small for one share change nothing; it fails only on a missing key when a BUY or SELL reads it |
| LegacyPortfolio.LegacyBuyOutcome | bot_investimentos.py:145-150 | a BUY with positive cash adds floor(0.02·cash/close) shares, pays for them at the close, and keeps at least 98% of the cash |
| LegacyPortfolio.LegacySellOutcome | bot_investimentos.py:151-153 | a SELL turns the whole holding into cash at the close; with nothing held it changes nothing |
| LegacyPortfolio.LoadLegacy | bot_investimentos.py:62-69 | a missing file or a missing key falls back to 10000 and the all-zero portfolio, key by key |
| LegacyPortfolio.LegacySaveLoadRoundTrip | bot_investimentos.py:165-168 | saving and reloading gives the same state |
| LegacyPortfolio.LegacyFreshIsValid | bot_investimentos.py:67-69 | a first run starts valid with 10000 and nothing held |
| LegacyReport.InsertByConfidence | bot_investimentos.py:172 | inserting into a confidence-sorted list keeps it sorted and adds exactly that row |
| LegacyReport.SortByConfidence | bot_investimentos.py:171-172 | the report is a permutation of the day's rows with non-increasing confidence |
| LegacyReport.WriteReportAsWritten | bot_investimentos.py:170-181 | as written, the report fails exactly when the day has no rows; otherwise the history is the old one followed by the report |
| LegacyReport.EmptyRunWritesNoReport | bot_investimentos.py:171-172 | a day on which every asset was skipped produces no report |
| LegacyReport.WriteReport | bot_investimentos.py:170-181 | the new history is the old history followed by the day's report; the report is sorted by confidence and a permutation of the day's rows; an empty day leaves the history unchanged |
| LegacyReport.WriteReportAgrees | bot_investimentos.py:170-181 | on every non-empty day the corrected writer produces exactly what the code writes |
| LegacyReport.HistoryAccumulates | bot_investimentos.py:174-180 | two days in a row keep the old history and then each day's rows in day order |
| LegacyRun.RowOf | bot_investimentos.py:156-163 | a report row carries the asset, the stamp and the signal unchanged, the close and RSI within half a cent, and no RSI exactly when it is undefined |
| LegacyRun.LegacyStep | bot_investimentos.py:74-163 | a short history is skipped with no change; otherwise the new state is the paper trade of the latest row's decision at its close and the row is that decision's report row, with confidence in [0,100]; the step fails exactly when that trade fails, which needs a symbol missing from the portfolio |
| LegacyRun.RunLegacy | bot_investimentos.py:71-163 | a completed run reports exactly the usable assets in order, keeps the keys and the state invariant; it fails only when a usable symbol is missing from the portfolio, and never when all are present |
| LegacyRun.LegacyDay | bot_investimentos.py:62-181 | with the corrected report writer (the code as written raises at line 172 on an empty day, after the state is saved; see Findings): a whole day keeps the old history as a prefix and appends the sorted report, whose assets are the usable symbols in some order; it keeps the loaded keys and validity, and always completes on a first run over the universe |
| LegacyRun.PermutedSymbols | bot_investimentos.py:171-172 | reordering the report rows reorders their symbols the same way |
| Lexicographic.LexLessByFirstDifference | app.py:84 | Python's string order: a proper prefix sorts first, otherwise the first differing character decides |
| Lexicographic.LexTransitive | app.py:84 | Python's string order is transitive |
| Lexicographic.LexTotal | app.py:84 | any two distinct strings are ordered one way |
| Lexicographic.InsertUnique | app.py:84 | inserting into a strictly ascending list keeps it strictly ascending and adds exactly that element |
| Lexicographic.SortedUnique | app.py:84 | the sorted unique list is strictly ascending with the same elements |
| Lexicographic.AscendingIsUnique | app.py:84 | there is only one strictly ascending list of a given set of strings |
| TradeLog.Tail | app.py:69 | the window holds min(n, k) elements and is the end of the sequence |
| TradeLog.TailOfAppend | app.py:69 | the window after new rows depends only on the previous window and the new rows |
| TradeLog.RecentTrades | app.py:69 | the trade-history view is the whole log up to 100 rows, otherwise its last 100 rows in order |
| TradeLog.ForAsset | app.py:98 | the filtered rows are exactly the log's rows of that asset |
| TradeLog.ForAssetAppend | app.py:98 | filtering keeps the file order of the asset's rows |
| TradeLog.TradedAssets | app.py:84 | the assets view is strictly ascending and lists exactly the assets that occur in the history, once each |
| Performance.PerfStep | app.py:114-151 | BUY while flat opens at the row's price; SELL while holding realises price − cost and reports value 0; any other row while holding changes nothing and reports the price; any other row while flat is not reported; only a closing SELL changes the profit; the position stays 0 or 1 |
| Performance.PerfRun | app.py:108-151 | over any rows the position stays 0 or 1 and at most one point is reported per row |
| Performance.AssetPerformance | app.py:90-154 | the performance view is the last min(50, n) points of the asset's curve |
| Performance.EmptyCurveIffNoBuy | app.py:119-151 | from a flat start the curve is empty iff no row is a BUY |
| Performance.FirstWith | app.py:119-142 | the search finds the first row with a decision, or reports there is none |
| Performance.RunRealises | app.py:108-142 | the state machine's profit equals the search-based sum over BUY-then-SELL round trips |
| Performance.CurveProfit | app.py:108-151 | from the start, the final cumulative profit is the sum of SELL price − opening BUY price over completed round trips |
| Performance.OneRoundTrip | app.py:119-142 | a BUY then a SELL realises their price difference and reports two points |
| DailyHistory.FindDay | app.py:183 | the day's dictionary slot is found, or no entry has that day |
| DailyHistory.Upsert | app.py:183-188 | dictionary assignment: an existing day keeps its place and takes the new value, a new day goes at the end; days stay distinct |
| DailyHistory.Rollup | app.py:180-191 | the rollup has distinct days and no more entries than rows |
| DailyHistory.LastIndexOn | app.py:180-188 | reference: the last row on a day, or none when the day does not occur |
| DailyHistory.RollupDays | app.py:180-191 | the rollup has an entry for exactly the days that occur in the rows |
| DailyHistory.RollupIsLastOfEachDay | app.py:180-191 | each entry is the day's last row |
| DailyHistory.RollupAscending | app.py:176-191 | on date-sorted rows the entries' days ascend strictly |
| DailyHistory.AssetHistory | app.py:160-192 | the history view is the last min(30, n) entries of the asset's rollup, with distinct days |
| DailyHistory.HistoryView | app.py:170-192 | each entry of the view is the last row of its day for the asset, and on date-sorted rows the days ascend strictly |

## Left out

* **Market data.** The download of prices (`yf.download`) is not modelled. Each asset's rows, or their absence, are an input. The latest prices of the valuation are a `quote` function.
* **Indicators.** The EMA, RSI, MACD and Bollinger computations (pandas `ewm`/`rolling`/`std`) are not modelled. Indicator values are given as `Option<real>`, with `None` for NaN.
* **Floating point.** All arithmetic is on exact reals. `round` is exact half-even rounding of the real value, so binary-float representation effects are not modelled.
* **Files and I/O.** JSON and CSV reading and writing, `os.path.exists`, the CSV header handling and `print` logging are not modelled. The files are values passed in and returned.
* **Clock.** The `datetime.now()` stamp is a parameter (`Stamp`). The model freezes the clock for a whole run: every row of a run carries the same stamp, whereas the source reads the clock once per asset (investment_bot.py:237, bot_investimentos.py:157), so one run's rows can differ in the minute or even the day.
* **The per-asset `try/except` in the fee-aware bot.** It is modelled only for the errors the model can raise: a missing portfolio key skips the asset. Errors inside the download and the indicator code are outside the model.
* **State file keys.** A state file of the fee-aware bot that lacks `available_cash` or `portfolio` raises outside any handler (investment_bot.py:118-119). `StateFile` always holds both keys, so that crash is not modelled.
* **Prices.** To keep the model simple, every close a run trades at is assumed positive (`Priced`, `LegacyPriced`). In the source only a BUY at a zero close would raise, through the division in the position sizing (investment_bot.py:205 and 210, bot_investimentos.py:147); a SELL or HOLD at a zero close does not raise. Runs over such closes are not modelled, although `Portfolio.ApplySell` itself accepts a zero price.
* **Dashboard routing.**
  * Flask routing, `jsonify` and the HTTP error tuples are not modelled.
  * The pass-through endpoints (summary, portfolio, signals, allocation) only re-serve files and are not modelled.
  * The static scripts are UI and are not modelled.
* **Date parsing and sorting in app.py.** Parsing `date` with `pd.to_datetime` and sorting with `sort_values` are not modelled. The rows are taken in file order, which the bot writes in date order; `DailyHistory.HistoryView` states ascending days under that ordering (`ByDay`). pandas' default sort is not stable, so the order of same-day rows is taken as given.
* Portfolio.StoredBlendBounds: the weighted-average property is stated before the rounding to four and two decimals. After rounding it holds only within the stated error.
* Portfolio.SaveLoadRoundTrip: the state is not reloaded bit for bit. The cash is saved rounded to cents, so an arbitrary cash value does not survive the round trip. The model follows the code, which rounds at investment_bot.py:255.
* Valuation.Valuate: the summary and detail figures are stated to within half a cent of the exact values, rather than as the exact result of rounding to cents.
* Signals.Decide: the source never checks the MACD signal line for NaN. A comparison with NaN is false, so the MACD rule then votes sell, and the model does the same (`Above`).

## Findings

| source | as written | input that shows it | evidently intended | confidence | as-written member | corrected member |
|---|---|---|---|---|---|---|
| bot_investimentos.py:171-172 | the day's rows are put in a DataFrame and sorted by the "Confiança" column | a day on which every asset is skipped (every download shorter than 60 rows): the empty DataFrame has no such column, so the sort raises a KeyError after the state was saved, and neither the history nor the daily report is written | an empty day appends nothing to the history and writes an empty report | not executed; follows from pandas' documented behaviour on a missing sort key | LegacyReport.WriteReportAsWritten | LegacyReport.WriteReport |

=== FILE: backtest.dfy ===
/** Directional accuracy of the unweighted rules on an asset's own history:
    every complete row is scored, classified as a buy call or a sell call,
    and judged against the close five rows later. */
module Backtest {
  import opened Signals

  /** Rows between a call and the close it is judged against. */
  const Lookahead: nat := 5

  /** Wins and calls on each side. */
  datatype Tally = Tally(buyWins: nat, buyCalls: nat, sellWins: nat, sellCalls: nat)

  function Plus(a: Tally, b: Tally): Tally
  {
    Tally(a.buyWins + b.buyWins, a.buyCalls + b.buyCalls, a.sellWins + b.sellWins, a.sellCalls + b.sellCalls)
  }

  /** What one historical row contributes, given the row `Lookahead` later.
      Rows with an undefined indicator and rows whose two scores tie are
      neither kind of call; a call wins when the later close moved its way. */
  function Classify(current: Bar, future: Bar): (t: Tally)
    ensures t.buyWins <= t.buyCalls && t.sellWins <= t.sellCalls && t.buyCalls + t.sellCalls <= 1
    ensures !Complete(current) ==> t == Tally(0, 0, 0, 0)
    ensures Complete(current) ==>
      && (t.buyCalls == 1 <==> RuleScores(current).buy > RuleScores(current).sell)
      && (t.sellCalls == 1 <==> RuleScores(current).sell > RuleScores(current).buy)
    ensures t.buyWins == 1 <==> t.buyCalls == 1 && future.close > current.close
    ensures t.sellWins == 1 <==> t.sellCalls == 1 && future.close < current.close
  {
    if !Complete(current) then Tally(0, 0, 0, 0)
    else
      var s := RuleScores(current);
      if s.buy > s.sell then
        Tally(if future.close > current.close then 1 else 0, 1, 0, 0)
      else if s.sell > s.buy then
        Tally(0, 0, if future.close < current.close then 1 else 0, 1)
      else
        Tally(0, 0, 0, 0)
  }

  /** Tally of the first `n` rows, each judged against the row `Lookahead`
      after it. */
  function TallyUpTo(rows: seq<Bar>, n: nat): (t: Tally)
    requires n == 0 || n + Lookahead <= |rows|
    ensures t.buyWins <= t.buyCalls && t.sellWins <= t.sellCalls
    ensures t.buyCalls + t.sellCalls <= n
  {
    if n == 0 then Tally(0, 0, 0, 0)
    else Plus(TallyUpTo(rows, n - 1), Classify(rows[n - 1], rows[n - 1 + Lookahead]))
  }

  /** Number of rows that have a row `Lookahead` after them. */
  function Sessions(rows: seq<Bar>): (n: nat)
    ensures n + Lookahead <= |rows| || n == 0
    ensures |rows| > Lookahead ==> n + Lookahead == |rows|
  {
    if |rows| > Lookahead then |rows| - Lookahead else 0
  }

  function TallyAll(rows: seq<Bar>): Tally
  {
    TallyUpTo(rows, Sessions(rows))
  }

  /** Share of calls that won, with the neutral 0.5 for a side that made no
      call. */
  function Accuracy(wins: nat, calls: nat): (a: real)
    requires wins <= calls
    ensures 0.0 <= a <= 1.0
    ensures calls == 0 ==> a == 0.5
    ensures calls > 0 ==> a * calls as real == wins as real
  {
    if calls == 0 then 0.5
    else
      var a := wins as real / calls as real;
      assert a * calls as real == wins as real;
      a
  }

  datatype Accuracies = Accuracies(buy: real, sell: real)

  /** The pair of accuracies a backtest of `rows` reports. */
  function BacktestAccuracies(rows: seq<Bar>): (acc: Accuracies)
    ensures 0.0 <= acc.buy <= 1.0 && 0.0 <= acc.sell <= 1.0
    ensures TallyAll(rows).buyCalls == 0 ==> acc.buy == 0.5
    ensures TallyAll(rows).sellCalls == 0 ==> acc.sell == 0.5
    ensures |rows| <= Lookahead ==> acc == Accuracies(0.5, 0.5)
  {
    var t := TallyAll(rows);
    Accuracies(Accuracy(t.buyWins, t.buyCalls), Accuracy(t.sellWins, t.sellCalls))
  }

  /** The backtest loop: one pass over every row that has a row `Lookahead`
      after it, counting calls and wins on each side. */
  method CountCalls(rows: seq<Bar>) returns (buyWins: nat, buyTotal: nat, sellWins: nat, sellTotal: nat)
    ensures Tally(buyWins, buyTotal, sellWins, sellTotal) == TallyAll(rows)
    ensures buyWins <= buyTotal && sellWins <= sellTotal
  {
    buyWins, buyTotal, sellWins, sellTotal := 0, 0, 0, 0;
    var n := if |rows| > Lookahead then |rows| - Lookahead else 0;
    var i := 0;
    while i < n
      invariant 0 <= i <= n
      invariant n == Sessions(rows)
      invariant Tally(buyWins, buyTotal, sellWins, sellTotal) == TallyUpTo(rows, i)
    {
      var current := rows[i];
      var future := rows[i + Lookahead];
      ghost var before := Tally(buyWins, buyTotal, sellWins, sellTotal);
      if Complete(current) {
        var s := RuleScores(current);
        if s.buy > s.sell {
          buyTotal := buyTotal + 1;
          if future.close > current.close {
            buyWins := buyWins + 1;
          }
        } else if s.sell > s.buy {
          sellTotal := sellTotal + 1;
          if future.close < current.close {
            sellWins := sellWins + 1;
          }
        }
      }
      ClassifyAgrees(current, future, before, Tally(buyWins, buyTotal, sellWins, sellTotal));
      TallyStep(rows, i);
      i := i + 1;
    }
  }

  lemma TallyStep(rows: seq<Bar>, i: nat)
    requires i + 1 + Lookahead <= |rows|
    ensures TallyUpTo(rows, i + 1) == Plus(TallyUpTo(rows, i), Classify(rows[i], rows[i + Lookahead]))
  {
  }

  /** The loop body's nested conditions update the counters by exactly what
      `Classify` says the row contributes. */
  lemma ClassifyAgrees(current: Bar, future: Bar, before: Tally, after: Tally)
    requires !Complete(current) ==> after == before
    requires Complete(current) ==>
      var s := RuleScores(current);
      after == (if s.buy > s.sell then
                  before.(buyCalls := before.buyCalls + 1,
                          buyWins := if future.close > current.close then before.buyWins + 1 else before.buyWins)
                else if s.sell > s.buy then
                  before.(sellCalls := before.sellCalls + 1,
                          sellWins := if future.close < current.close then before.sellWins + 1 else before.sellWins)
                else before)
    ensures after == Plus(before, Classify(current, future))
  {
  }

  /** The accuracies the backtest reports: the counted wins over the
      counted calls on each side. */
  method RunBacktest(rows: seq<Bar>) returns (buyAccuracy: real, sellAccuracy: real)
    ensures Accuracies(buyAccuracy, sellAccuracy) == BacktestAccuracies(rows)
    ensures 0.0 <= buyAccuracy <= 1.0 && 0.0 <= sellAccuracy <= 1.0
  {
    var buyWins, buyTotal, sellWins, sellTotal := CountCalls(rows);
    buyAccuracy := Accuracy(buyWins, buyTotal);
    sellAccuracy := Accuracy(sellWins, sellTotal);
  }

  /** Two histories with the same closes that differ only in rows no call is
      made from: rows with an undefined indicator, and the last `Lookahead`
      rows, which are only ever read for their close. */
  predicate SameCalls(rows: seq<Bar>, other: seq<Bar>)
  {
    && |rows| == |other|
    && (forall i :: 0 <= i < |rows| ==> rows[i].close == other[i].close)
    && (forall i :: 0 <= i < |rows| - Lookahead ==>
          (Complete(rows[i]) || Complete(other[i])) ==> rows[i] == other[i])
  }

  lemma {:induction false} TallyUpToOnlyReadsCalls(rows: seq<Bar>, other: seq<Bar>, n: nat)
    requires SameCalls(rows, other)
    requires n == 0 || n + Lookahead <= |rows|
    ensures TallyUpTo(rows, n) == TallyUpTo(other, n)
  {
    if n > 0 {
      TallyUpToOnlyReadsCalls(rows, other, n - 1);
      var k := n - 1;
      ClassifyReadsCalls(rows[k], rows[k + Lookahead], other[k], other[k + Lookahead]);
      TallyStep(rows, k);
      TallyStep(other, k);
    }
  }

  /** A row from which no call can be made contributes nothing, whatever its
      indicators; otherwise only its own fields and the later close count. */
  lemma ClassifyReadsCalls(current: Bar, future: Bar, current': Bar, future': Bar)
    requires future.close == future'.close
    requires (Complete(current) || Complete(current')) ==> current == current'
    ensures Classify(current, future) == Classify(current', future')
  {
  }

  /** The backtest reads a row's indicators only when a call can be made
      from it (index i with i + 5 inside the history, all indicators defined),
      and reads the other rows only for their close. */
  lemma BacktestOnlyReadsCalls(rows: seq<Bar>, other: seq<Bar>)
    requires SameCalls(rows, other)
    ensures BacktestAccuracies(rows) == BacktestAccuracies(other)
  {
    TallyUpToOnlyReadsCalls(rows, other, Sessions(rows));
  }
}

=== FILE: daily.dfy ===
/** The per-asset daily history of the dashboard: the asset's rows in date
    order, collapsed to one entry per calendar day holding that day's last
    row, and cut to the last 30 days. */
module DailyHistory {
  import opened Wrappers
  import opened Records
  import opened TradeLog

  /** One day of the history: day, decision, confidence and price of the
      day's last row. */
  datatype DayEntry = DayEntry(day: int, decision: Decision, confidence: int, price: real)

  function EntryOf(t: TradeRecord): DayEntry
  {
    DayEntry(t.stamp.day, t.decision, t.confidence, t.price)
  }

  function Days(entries: seq<DayEntry>): (r: seq<int>)
    ensures |r| == |entries|
    ensures forall k :: 0 <= k < |entries| ==> r[k] == entries[k].day
  {
    seq(|entries|, k requires 0 <= k < |entries| => entries[k].day)
  }

  predicate DistinctDays(entries: seq<DayEntry>)
  {
    forall i, j :: 0 <= i < j < |entries| ==> entries[i].day != entries[j].day
  }

  /** Where day `d` sits among the entries, if it is there. */
  function FindDay(entries: seq<DayEntry>, d: int): (r: Option<nat>)
    ensures r.Some? ==> r.value < |entries| && entries[r.value].day == d
    ensures r.None? ==> forall k :: 0 <= k < |entries| ==> entries[k].day != d
  {
    if |entries| == 0 then None
    else if entries[|entries| - 1].day == d then Some(|entries| - 1)
    else
      var r := FindDay(entries[..|entries| - 1], d);
      assert forall k :: 0 <= k < |entries| - 1 ==> entries[..|entries| - 1][k] == entries[k];
      r
  }

  /** Assignment to a dictionary keyed by day: an existing day keeps its
      place and takes the new value, a new day goes at the end. */
  function Upsert(entries: seq<DayEntry>, e: DayEntry): (r: seq<DayEntry>)
    requires DistinctDays(entries)
    ensures DistinctDays(r)
    ensures e.day in Days(entries) ==> Days(r) == Days(entries)
    ensures e.day !in Days(entries) ==> Days(r) == Days(entries) + [e.day]
    ensures forall k :: 0 <= k < |r| ==> if r[k].day == e.day then r[k] == e else r[k] == entries[k]
  {
    match FindDay(entries, e.day)
    case Some(i) =>
      var r := entries[i := e];
      assert Days(r) == Days(entries);
      r
    case None =>
      var r := entries + [e];
      assert e.day !in Days(entries);
      assert Days(r) == Days(entries) + [e.day];
      r
  }

  /** The day-keyed dictionary filled from the rows in order. */
  function Rollup(rows: seq<TradeRecord>): (r: seq<DayEntry>)
    ensures DistinctDays(r)
    ensures |r| <= |rows|
    decreases |rows|
  {
    if |rows| == 0 then []
    else Upsert(Rollup(rows[..|rows| - 1]), EntryOf(rows[|rows| - 1]))
  }

  /** Row `i` is the last of its day. */
  predicate LastOfDay(rows: seq<TradeRecord>, i: int)
    requires 0 <= i < |rows|
  {
    forall j :: i < j < |rows| ==> rows[j].stamp.day != rows[i].stamp.day
  }

  /** Reference definition: the index of the last row on day `d`, found by
      scanning from the end. */
  function LastIndexOn(rows: seq<TradeRecord>, d: int): (r: Option<nat>)
    ensures r.None? <==> forall i :: 0 <= i < |rows| ==> rows[i].stamp.day != d
    ensures r.Some? ==> r.value < |rows| && rows[r.value].stamp.day == d && LastOfDay(rows, r.value)
    decreases |rows|
  {
    if |rows| == 0 then None
    else
      var n := |rows| - 1;
      if rows[n].stamp.day == d then Some(n)
      else
        var init := rows[..n];
        assert forall i :: 0 <= i < n ==> init[i] == rows[i];
        var r := LastIndexOn(init, d);
        if r.Some? then
          LastOfDayExtends(rows, r.value);
          r
        else r
  }

  /** A row that is last of its day before a row of another day stays the
      last of its day. */
  lemma LastOfDayExtends(rows: seq<TradeRecord>, i: nat)
    requires |rows| > 0 && i < |rows| - 1
    requires LastOfDay(rows[..|rows| - 1], i)
    requires rows[|rows| - 1].stamp.day != rows[i].stamp.day
    ensures LastOfDay(rows, i)
  {
    var init := rows[..|rows| - 1];
    forall j | i < j < |rows|
      ensures rows[j].stamp.day != rows[i].stamp.day
    {
      if j < |rows| - 1 {
        assert rows[j] == init[j];
      }
    }
  }

  /** The entry of the last row on day `d`, if any. */
  function LastOn(rows: seq<TradeRecord>, d: int): (r: Option<DayEntry>)
    ensures r.None? <==> forall i :: 0 <= i < |rows| ==> rows[i].stamp.day != d
  {
    match LastIndexOn(rows, d)
    case None => None
    case Some(i) => Some(EntryOf(rows[i]))
  }

  /** How the scan over a longer prefix relates to the shorter one. */
  lemma LastOnStep(rows: seq<TradeRecord>, d: int)
    requires |rows| > 0
    ensures rows[|rows| - 1].stamp.day == d ==> LastOn(rows, d) == Some(EntryOf(rows[|rows| - 1]))
    ensures rows[|rows| - 1].stamp.day != d ==> LastOn(rows, d) == LastOn(rows[..|rows| - 1], d)
  {
  }

  /** The rollup holds an entry for exactly the days that occur in the
      rows. */
  lemma {:induction false} RollupDays(rows: seq<TradeRecord>)
    ensures forall d :: d in Days(Rollup(rows)) <==> LastOn(rows, d).Some?
    decreases |rows|
  {
    if |rows| > 0 {
      var n := |rows| - 1;
      var init := rows[..n];
      RollupDays(init);
      var e := EntryOf(rows[n]);
      var prev := Rollup(init);
      var days := Days(Rollup(rows));
      assert Rollup(rows) == Upsert(prev, e);
      var grown := if e.day in Days(prev) then Days(prev) else Days(prev) + [e.day];
      assert days == grown;
      forall d
        ensures d in days <==> LastOn(rows, d).Some?
      {
        LastOnStep(rows, d);
        assert d in grown <==> d in Days(prev) || d == e.day;
      }
    }
  }

  /** Each entry of the rollup is the one the reference scan finds: the
      last row of its day. */
  lemma {:induction false} RollupIsLastOfEachDay(rows: seq<TradeRecord>)
    ensures forall k :: 0 <= k < |Rollup(rows)| ==> LastOn(rows, Rollup(rows)[k].day) == Some(Rollup(rows)[k])
    decreases |rows|
  {
    if |rows| > 0 {
      var n := |rows| - 1;
      var init := rows[..n];
      RollupIsLastOfEachDay(init);
      var prev := Rollup(init);
      var r := Rollup(rows);
      var e := EntryOf(rows[n]);
      assert r == Upsert(prev, e);
      forall k | 0 <= k < |r|
        ensures LastOn(rows, r[k].day) == Some(r[k])
      {
        LastOnStep(rows, r[k].day);
        if r[k].day != e.day {
          assert r[k] == prev[k];
        }
      }
    }
  }

  /** Rows whose days never decrease. */
  predicate ByDay(rows: seq<TradeRecord>)
  {
    forall i, j :: 0 <= i < j < |rows| ==> rows[i].stamp.day <= rows[j].stamp.day
  }

  /** Entries whose days ascend strictly. */
  predicate Ascending(entries: seq<DayEntry>)
  {
    forall i, j :: 0 <= i < j < |entries| ==> entries[i].day < entries[j].day
  }

  /** On rows sorted by day the entries come out in strictly ascending day
      order. */
  lemma {:induction false} RollupAscending(rows: seq<TradeRecord>)
    requires ByDay(rows)
    ensures Ascending(Rollup(rows))
    decreases |rows|
  {
    if |rows| > 0 {
      var n := |rows| - 1;
      var init := rows[..n];
      assert ByDay(init);
      RollupAscending(init);
      RollupDays(init);
      var prev := Rollup(init);
      assert forall i :: 0 <= i < |init| ==> init[i].stamp.day <= rows[n].stamp.day;
      DaysBounded(init, prev, rows[n].stamp.day);
      UpsertAscending(prev, EntryOf(rows[n]));
    }
  }

  /** Entries whose days all occur in the rows lie no later than the rows'
      latest day. */
  lemma DaysBounded(rows: seq<TradeRecord>, entries: seq<DayEntry>, bound: int)
    requires forall d :: d in Days(entries) <==> LastOn(rows, d).Some?
    requires forall i :: 0 <= i < |rows| ==> rows[i].stamp.day <= bound
    ensures forall m :: 0 <= m < |entries| ==> entries[m].day <= bound
  {
    forall m | 0 <= m < |entries|
      ensures entries[m].day <= bound
    {
      var d := entries[m].day;
      assert Days(entries)[m] == d;
      assert LastOn(rows, d).Some?;
    }
  }

  /** Upserting a day no earlier than any present keeps the days ascending. */
  lemma UpsertAscending(entries: seq<DayEntry>, e: DayEntry)
    requires DistinctDays(entries) && Ascending(entries)
    requires forall m :: 0 <= m < |entries| ==> entries[m].day <= e.day
    ensures Ascending(Upsert(entries, e))
  {
    var r := Upsert(entries, e);
    forall m | 0 <= m < |r|
      ensures m < |entries| ==> r[m].day == entries[m].day
    {
      if m < |entries| {
        assert Days(r)[m] == Days(entries)[m] by {
          if e.day !in Days(entries) {
            assert Days(r) == Days(entries) + [e.day];
          }
        }
      }
    }
  }

  const HistoryLimit: nat := 30

  /** The history view of one asset: the last 30 day entries of the
      rollup, in the rollup's order. */
  function AssetHistory(log: seq<TradeRecord>, asset: string): (r: seq<DayEntry>)
    ensures var all := Rollup(ForAsset(log, asset));
      && |r| == (if |all| < HistoryLimit then |all| else HistoryLimit)
      && r == all[|all| - |r|..]
    ensures DistinctDays(r)
  {
    Tail(Rollup(ForAsset(log, asset)), HistoryLimit)
  }

  /** A window of entries that are each the last row of their day. */
  lemma WindowEntriesAreLast(rows: seq<TradeRecord>, all: seq<DayEntry>, k: nat)
    requires forall m :: 0 <= m < |all| ==> LastOn(rows, all[m].day) == Some(all[m])
    ensures var w := Tail(all, k);
      forall m :: 0 <= m < |w| ==> LastOn(rows, w[m].day) == Some(w[m])
  {
    var w := Tail(all, k);
    forall m | 0 <= m < |w|
      ensures LastOn(rows, w[m].day) == Some(w[m])
    {
      assert w[m] == all[|all| - |w| + m];
    }
  }

  /** A window of strictly ascending days ascends strictly. */
  lemma WindowAscending(all: seq<DayEntry>, k: nat)
    requires Ascending(all)
    ensures Ascending(Tail(all, k))
  {
    SuffixAscending(all, |all| - |Tail(all, k)|);
  }

  lemma SuffixAscending(all: seq<DayEntry>, d: nat)
    requires Ascending(all) && d <= |all|
    ensures Ascending(all[d..])
  {
    var w := all[d..];
    forall i, j | 0 <= i < j < |w|
      ensures w[i].day < w[j].day
    {
      assert w[i] == all[d + i] && w[j] == all[d + j];
    }
  }

  /** Every entry of the history view is the last row of its day among the
      asset's rows, and when those rows are in date order the view's days
      ascend strictly. */
  lemma HistoryView(log: seq<TradeRecord>, asset: string)
    ensures var rows := ForAsset(log, asset);
      forall k :: 0 <= k < |AssetHistory(log, asset)| ==>
        LastOn(rows, AssetHistory(log, asset)[k].day) == Some(AssetHistory(log, asset)[k])
    ensures ByDay(ForAsset(log, asset)) ==> Ascending((AssetHistory(log, asset)))
  {
    var rows := ForAsset(log, asset);
    var all := Rollup(rows);
    assert AssetHistory(log, asset) == Tail(all, HistoryLimit);
    RollupIsLastOfEachDay(rows);
    WindowEntriesAreLast(rows, all, HistoryLimit);
    if ByDay(rows) {
      RollupAscending(rows);
      WindowAscending(all, HistoryLimit);
    }
  }
}

=== FILE: legacy_portfolio.dfy ===
/** Paper trading of the earlier engine variant: whole shares only, no
    broker fee, no average price, and a state file that stores cash and
    quantities as they are. */
module LegacyPortfolio {
  import opened Wrappers
  import opened Numeric
  import opened Records

  const InitialMoney: real := 10000.0
  const RiskShare: real := 0.02

  const LegacyStocks: seq<string> := [
    "AAPL", "MSFT", "NVDA", "AMZN", "GOOGL", "META", "TSLA", "BRK-B", "JNJ", "V",
    "PG", "UNH", "MA", "HD", "BAC", "XOM", "PFE", "CVX", "KO", "COST", "ABBV", "ADBE",
    "CRM", "CSCO", "PEP", "AVGO", "LLY", "TMUS", "ORCL", "NKE", "ASML", "INTC", "TMO",
    "MCD", "WMT", "DHR", "ACN", "QCOM", "AMGN", "TXN", "MDT", "HON", "LIN", "NEE",
    "UNP", "LOW", "RTX", "PM", "UPS", "CAT", "SBUX", "IBM", "BLK", "AXP", "SPGI", "MS",
    "GE", "LMT", "AMT", "PLD", "CHTR", "C", "BKNG", "TJX", "MMM", "CVS", "GILD", "SYK",
    "ZTS", "ANTM", "MO", "DE", "FIS", "T", "VZ", "DUK", "CCI", "SO", "BSX", "BDX", "ETN",
    "CL", "EL", "SHW", "ICE", "ADP", "APD", "ITW", "ECL"]

  const LegacyEtfs: seq<string> := [
    "SPY", "VOO", "IVV", "VTI", "QQQ", "VUG", "VEA", "VTV", "IEFA", "AGG",
    "IEMG", "IJH", "IJR", "VIG", "VYM", "SCHD", "XLK", "SCZ", "VT", "ACWI"]

  /** The universe, stocks first. */
  const LegacyAssets: seq<string> := LegacyStocks + LegacyEtfs

  /** Cash and whole-share quantities keyed by symbol. */
  datatype LegacyState = LegacyState(cash: real, holdings: map<string, int>)

  predicate LegacyValid(st: LegacyState)
  {
    st.cash >= 0.0 && forall a :: a in st.holdings ==> st.holdings[a] >= 0
  }

  /** Every asset of the universe at quantity zero. */
  function ZeroHoldings(): (h: map<string, int>)
    ensures h.Keys == set a | a in LegacyAssets
    ensures forall a :: a in h ==> h[a] == 0
  {
    map a | a in LegacyAssets :: 0
  }

  /** Cash plus the holding of `asset` marked at `price`. */
  function MarkedValue(st: LegacyState, asset: string, price: real): real
    requires asset in st.holdings
  {
    st.cash + st.holdings[asset] as real * price
  }

  /** Shares a BUY takes: 2% of the cash floor-divided by the close. */
  function LegacyBuyQuantity(cash: real, close: real): (q: int)
    requires close > 0.0
    ensures cash >= 0.0 ==> q >= 0
    ensures q as real * close <= RiskShare * cash < (q + 1) as real * close
  {
    FloorDiv(cash * RiskShare, close)
  }

  /** One paper trade. A BUY needs positive cash and spends the whole
      shares 2% of the cash pays for; a SELL of a positive holding sells it
      all; a HOLD, and a BUY without cash or too little of it for one share,
      change nothing. `None` stands for the lookup of a symbol missing from the
      portfolio, which ends the run. */
  function LegacyTrade(st: LegacyState, asset: string, decision: Decision, close: real): (r: Option<LegacyState>)
    requires close > 0.0
    ensures asset in st.holdings ==> r.Some?
    ensures r.None? ==> asset !in st.holdings && decision != Hold
    ensures r.Some? ==> r.value.holdings.Keys == st.holdings.Keys
    ensures r.Some? ==> forall a :: a in st.holdings && a != asset ==> r.value.holdings[a] == st.holdings[a]
    ensures r.Some? && asset !in st.holdings ==> r.value == st
    ensures r.Some? && asset in st.holdings ==> MarkedValue(r.value, asset, close) == MarkedValue(st, asset, close)
    ensures r.Some? && LegacyValid(st) ==> LegacyValid(r.value)
    ensures decision == Hold ==> r == Some(st)
    ensures decision == Buy && st.cash <= 0.0 ==> r == Some(st)
    ensures decision == Buy && st.cash > 0.0 && LegacyBuyQuantity(st.cash, close) == 0 ==> r == Some(st)
  {
    if decision == Buy && st.cash > 0.0 then
      var q := LegacyBuyQuantity(st.cash, close);
      if q > 0 then
        if asset in st.holdings then
          var st' := LegacyState(st.cash - q as real * close, st.holdings[asset := st.holdings[asset] + q]);
          assert (st.holdings[asset] + q) as real * close == st.holdings[asset] as real * close + q as real * close;
          assert q as real * close <= st.cash by {
            assert RiskShare * st.cash <= st.cash;
          }
          Some(st')
        else None
      else Some(st)
    else if decision == Sell then
      if asset !in st.holdings then None
      else if st.holdings[asset] > 0 then
        var h := st.holdings[asset];
        assert h as real * close > 0.0;
        Some(LegacyState(st.cash + h as real * close, st.holdings[asset := 0]))
      else Some(st)
    else Some(st)
  }

  /** A BUY with positive cash takes the largest whole number of shares
      whose price fits in 2% of the cash; it leaves at least 98% of the
      cash. */
  lemma LegacyBuyOutcome(st: LegacyState, asset: string, close: real)
    requires close > 0.0 && st.cash > 0.0 && asset in st.holdings
    ensures
      var q := LegacyBuyQuantity(st.cash, close);
      var r := LegacyTrade(st, asset, Buy, close).value;
      && r.holdings[asset] == st.holdings[asset] + q
      && r.cash == st.cash - q as real * close
      && q as real * close <= RiskShare * st.cash < (q + 1) as real * close
      && r.cash >= (1.0 - RiskShare) * st.cash
  {
  }

  /** A SELL turns the whole holding into cash at the close; with no
      holding nothing happens. */
  lemma LegacySellOutcome(st: LegacyState, asset: string, close: real)
    requires close > 0.0 && asset in st.holdings
    ensures
      var r := LegacyTrade(st, asset, Sell, close).value;
      if st.holdings[asset] > 0 then
        r.holdings[asset] == 0 && r.cash == st.cash + st.holdings[asset] as real * close
      else r == st
  {
  }

  /** Contents of the state file: either key may be missing. */
  datatype LegacyFile = LegacyFile(money: Option<real>, portfolio: Option<map<string, int>>)

  /** Reading the state: a missing file or a missing key falls back to the
      initial money and an all-zero portfolio over the universe. */
  function LoadLegacy(file: Option<LegacyFile>): (st: LegacyState)
    ensures file.None? ==> st == LegacyState(InitialMoney, ZeroHoldings())
    ensures file.Some? && file.value.money.Some? ==> st.cash == file.value.money.value
    ensures file.Some? && file.value.money.None? ==> st.cash == InitialMoney
    ensures file.Some? && file.value.portfolio.Some? ==> st.holdings == file.value.portfolio.value
    ensures file.Some? && file.value.portfolio.None? ==> st.holdings == ZeroHoldings()
  {
    match file
    case None => LegacyState(InitialMoney, ZeroHoldings())
    case Some(f) => LegacyState(f.money.GetOr(InitialMoney), f.portfolio.GetOr(ZeroHoldings()))
  }

  function SaveLegacy(st: LegacyState): LegacyFile
  {
    LegacyFile(Some(st.cash), Some(st.holdings))
  }

  /** The state file stores cash and quantities unrounded, so reading back
      what was written gives the same state. */
  lemma LegacySaveLoadRoundTrip(st: LegacyState)
    ensures LoadLegacy(Some(SaveLegacy(st))) == st
  {
  }

  /** A first run starts valid, with the initial money and nothing held. */
  lemma LegacyFreshIsValid()
    ensures var st := LoadLegacy(None);
      LegacyValid(st) && st.cash == 10000.0 && forall a :: a in LegacyAssets ==> a in st.holdings && st.holdings[a] == 0
  {
  }
}

=== FILE: legacy_report.dfy ===
/** The daily report of the earlier engine variant: one row per scored
    asset, ordered by confidence, highest first, and appended to the
    cumulative history. */
module LegacyReport {
  import opened Wrappers
  import opened Records

  /** One report row: stamp, symbol, close and RSI at two decimals (no RSI
      when it is undefined), decision and confidence. */
  datatype ReportRow = ReportRow(
    stamp: Stamp,
    asset: string,
    price: real,
    rsi: Option<real>,
    decision: Decision,
    confidence: int)

  /** Confidence never increases along the rows. */
  predicate ByConfidence(rows: seq<ReportRow>)
  {
    forall i, j :: 0 <= i < j < |rows| ==> rows[i].confidence >= rows[j].confidence
  }

  /** Puts `x` after every row of at least its confidence. */
  function InsertByConfidence(x: ReportRow, rows: seq<ReportRow>): (r: seq<ReportRow>)
    requires ByConfidence(rows)
    ensures ByConfidence(r)
    ensures multiset(r) == multiset(rows) + multiset{x}
    ensures |r| == |rows| + 1
    ensures r[0] == x || (|rows| > 0 && r[0] == rows[0])
  {
    if |rows| == 0 then [x]
    else if rows[0].confidence >= x.confidence then
      var tail := InsertByConfidence(x, rows[1..]);
      assert rows == [rows[0]] + rows[1..];
      ConsByConfidence(rows[0], tail);
      [rows[0]] + tail
    else
      ConsByConfidence(x, rows);
      [x] + rows
  }

  /** A row of at least the confidence of a sorted list's head can go in
      front of it. */
  lemma ConsByConfidence(y: ReportRow, s: seq<ReportRow>)
    requires ByConfidence(s)
    requires |s| > 0 ==> y.confidence >= s[0].confidence
    ensures ByConfidence([y] + s)
  {
    var r := [y] + s;
    forall i, j | 0 <= i < j < |r|
      ensures r[i].confidence >= r[j].confidence
    {
      assert r[j] == s[j - 1];
      if i > 0 {
        assert r[i] == s[i - 1];
      }
    }
  }

  /** The rows in order of confidence, highest first: a permutation of the
      input whose confidences never increase. */
  function SortByConfidence(rows: seq<ReportRow>): (r: seq<ReportRow>)
    ensures ByConfidence(r)
    ensures multiset(r) == multiset(rows)
    ensures |r| == |rows|
  {
    if |rows| == 0 then []
    else
      assert rows == [rows[0]] + rows[1..];
      InsertByConfidence(rows[0], SortByConfidence(rows[1..]))
  }

  /** The report exactly as the variant writes it: sorting a run without a
      single row fails, because the empty frame has no confidence column,
      so an empty run writes no report and leaves the history alone. */
  function WriteReportAsWritten(history: seq<ReportRow>, rows: seq<ReportRow>): (r: Option<(seq<ReportRow>, seq<ReportRow>)>)
    ensures r.None? <==> |rows| == 0
    ensures r.Some? ==> r.value.0 == history + r.value.1
  {
    if |rows| == 0 then None
    else
      var sorted := SortByConfidence(rows);
      Some((history + sorted, sorted))
  }

  /** A run in which every asset was skipped ends without a report. */
  lemma EmptyRunWritesNoReport(history: seq<ReportRow>)
    ensures WriteReportAsWritten(history, []).None?
  {
  }

  /** The new history and the day's report: the old history unchanged,
      followed by the day's rows sorted by confidence. An empty day leaves
      the history as it was and gives an empty report. */
  function WriteReport(history: seq<ReportRow>, rows: seq<ReportRow>): (r: (seq<ReportRow>, seq<ReportRow>))
    ensures |r.0| == |history| + |rows|
    ensures r.0[..|history|] == history
    ensures r.0[|history|..] == r.1
    ensures ByConfidence(r.1)
    ensures multiset(r.1) == multiset(rows)
    ensures |rows| == 0 ==> r == (history, [])
  {
    var sorted := SortByConfidence(rows);
    if |rows| == 0 then
      assert history + sorted == history;
      (history, [])
    else
    assert (history + sorted)[..|history|] == history;
    assert (history + sorted)[|history|..] == sorted;
    (history + sorted, sorted)
  }

  /** Wherever the variant does write a report, the corrected report is the
      same. */
  lemma WriteReportAgrees(history: seq<ReportRow>, rows: seq<ReportRow>)
    requires |rows| > 0
    ensures WriteReportAsWritten(history, rows) == Some(WriteReport(history, rows))
  {
  }

  /** Writing two days in a row keeps both days' rows in day order. */
  lemma {:induction false} HistoryAccumulates(history: seq<ReportRow>, day1: seq<ReportRow>, day2: seq<ReportRow>)
    ensures
      var h1 := WriteReport(history, day1).0;
      var h2 := WriteReport(h1, day2).0;
      && h2[..|history|] == history
      && multiset(h2[|history|..|history| + |day1|]) == multiset(day1)
      && multiset(h2[|history| + |day1|..]) == multiset(day2)
  {
    var h1 := WriteReport(history, day1).0;
    var h2 := WriteReport(h1, day2).0;
    assert h2[..|h1|] == h1;
    assert h2[..|history|] == h1[..|history|];
    assert h2[|history|..|history| + |day1|] == h1[|history|..];
  }
}

=== FILE: legacy_run.dfy ===
/** One run of the earlier engine variant: every asset with enough history
    is scored, traded on paper and reported, HOLD included; a symbol missing
    from the loaded portfolio ends the run. */
module LegacyRun {
  import opened Wrappers
  import opened Numeric
  import opened Records
  import opened LegacyScoring
  import opened LegacyPortfolio
  import opened LegacyReport

  const LegacyMinHistory: nat := 60

  /** What the market-data provider returned for one asset. */
  datatype LegacyInput = LegacyInput(symbol: string, history: Option<seq<Snapshot>>)

  predicate LegacyUsable(input: LegacyInput)
  {
    input.history.Some? && |input.history.value| >= LegacyMinHistory
  }

  function Latest(input: LegacyInput): Snapshot
    requires LegacyUsable(input)
  {
    input.history.value[|input.history.value| - 1]
  }

  /** Every usable input ends on a positive close. */
  predicate LegacyPriced(inputs: seq<LegacyInput>)
  {
    forall j :: 0 <= j < |inputs| && LegacyUsable(inputs[j]) ==> Latest(inputs[j]).close > 0.0
  }

  /** The symbols the run reports on, in universe order. */
  function UsableSymbols(inputs: seq<LegacyInput>): seq<string>
  {
    if |inputs| == 0 then []
    else (if LegacyUsable(inputs[0]) then [inputs[0].symbol] else []) + UsableSymbols(inputs[1..])
  }

  function Symbols(rows: seq<ReportRow>): (r: seq<string>)
    ensures |r| == |rows|
    ensures forall t :: 0 <= t < |rows| ==> r[t] == rows[t].asset
  {
    if |rows| == 0 then [] else [rows[0].asset] + Symbols(rows[1..])
  }

  /** The report row of one scored asset: the asset, the run's timestamp
      and the signal as they are, the close and the RSI rounded to cents, and
      no RSI when it is undefined. */
  function RowOf(s: Snapshot, symbol: string, signal: Signal, stamp: Stamp): (row: ReportRow)
    ensures row.asset == symbol && row.stamp == stamp
    ensures row.decision == signal.decision && row.confidence == signal.confidence
    ensures Within(row.price, s.close, 0.005)
    ensures row.rsi.Some? <==> s.rsi.Some?
    ensures row.rsi.Some? ==> Within(row.rsi.value, s.rsi.value, 0.005)
  {
    assert Scale(2) == 100.0 by {
      assert Pow10(2) == 100 by { assert Pow10(1) == 10; }
    }
    ReportRow(stamp, symbol, Round(s.close, 2),
              if s.rsi.Some? then Some(Round(s.rsi.value, 2)) else None,
              signal.decision, signal.confidence)
  }

  /** The per-asset step. A short history is skipped; otherwise the latest
      row is scored, traded and reported. `None` is the aborted run. */
  function LegacyStep(st: LegacyState, input: LegacyInput, stamp: Stamp): (r: Option<(LegacyState, Option<ReportRow>)>)
    requires LegacyUsable(input) ==> Latest(input).close > 0.0
    ensures r.None? ==> LegacyUsable(input) && input.symbol !in st.holdings
    ensures LegacyUsable(input) && input.symbol in st.holdings ==> r.Some?
    ensures r.Some? ==> r.value.0.holdings.Keys == st.holdings.Keys
    ensures r.Some? && LegacyValid(st) ==> LegacyValid(r.value.0)
    ensures r.Some? ==> (r.value.1.Some? <==> LegacyUsable(input))
    ensures r.Some? && !LegacyUsable(input) ==> r.value.0 == st
    ensures r.Some? && r.value.1.Some? ==>
      && r.value.1.value.asset == input.symbol
      && r.value.1.value.stamp == stamp
      && 0 <= r.value.1.value.confidence <= 100
      && r.value.1.value.decision == LegacyDecide(Latest(input)).decision
      && r.value.1.value.confidence == LegacyDecide(Latest(input)).confidence
    ensures LegacyUsable(input) ==>
      var trade := LegacyTrade(st, input.symbol, LegacyDecide(Latest(input)).decision, Latest(input).close);
      && (r.None? <==> trade.None?)
      && (r.Some? ==>
            && Some(r.value.0) == trade
            && r.value.1 == Some(RowOf(Latest(input), input.symbol, LegacyDecide(Latest(input)), stamp)))
  {
    if !LegacyUsable(input) then Some((st, None))
    else
      var s := Latest(input);
      var signal := LegacyDecide(s);
      match LegacyTrade(st, input.symbol, signal.decision, s.close)
      case None => None
      case Some(st') => Some((st', Some(RowOf(s, input.symbol, signal, stamp))))
  }

  /** The main loop. A run that completes reports exactly the usable assets
      in order, keeps the portfolio's keys and the state invariant; a run
      aborts only on a usable asset missing from the portfolio, and cannot
      abort when every usable asset is in it. */
  function RunLegacy(st: LegacyState, inputs: seq<LegacyInput>, stamp: Stamp): (r: Option<(LegacyState, seq<ReportRow>)>)
    requires LegacyPriced(inputs)
    decreases |inputs|
    ensures r.Some? ==> Symbols(r.value.1) == UsableSymbols(inputs)
    ensures r.Some? ==> r.value.0.holdings.Keys == st.holdings.Keys
    ensures r.Some? && LegacyValid(st) ==> LegacyValid(r.value.0)
    ensures r.Some? ==> forall t :: 0 <= t < |r.value.1| ==> 0 <= r.value.1[t].confidence <= 100
    ensures r.None? ==> exists j :: 0 <= j < |inputs| && LegacyUsable(inputs[j]) && inputs[j].symbol !in st.holdings
    ensures (forall j :: 0 <= j < |inputs| && LegacyUsable(inputs[j]) ==> inputs[j].symbol in st.holdings) ==> r.Some?
  {
    if |inputs| == 0 then Some((st, []))
    else
      assert LegacyPriced(inputs[1..]) by {
        forall j | 0 <= j < |inputs[1..]| && LegacyUsable(inputs[1..][j])
          ensures Latest(inputs[1..][j]).close > 0.0
        {
          assert inputs[1..][j] == inputs[j + 1];
        }
      }
      assert forall j :: 0 <= j < |inputs[1..]| ==> inputs[1..][j] == inputs[j + 1];
      match LegacyStep(st, inputs[0], stamp)
      case None => None
      case Some(first) =>
        match RunLegacy(first.0, inputs[1..], stamp)
        case None => None
        case Some(rest) =>
          var rows := Reported(first.1) + rest.1;
          CombineRows(first.1, rest.1, inputs);
          Some((rest.0, rows))
  }

  function Reported(row: Option<ReportRow>): seq<ReportRow>
  {
    if row.Some? then [row.value] else []
  }

  /** The first asset's row in front of the rest keeps the rows aligned
      with the usable symbols and within the confidence bounds. */
  lemma CombineRows(first: Option<ReportRow>, rest: seq<ReportRow>, inputs: seq<LegacyInput>)
    requires |inputs| > 0
    requires first.Some? <==> LegacyUsable(inputs[0])
    requires first.Some? ==> first.value.asset == inputs[0].symbol && 0 <= first.value.confidence <= 100
    requires Symbols(rest) == UsableSymbols(inputs[1..])
    requires forall t :: 0 <= t < |rest| ==> 0 <= rest[t].confidence <= 100
    ensures Symbols(Reported(first) + rest) == UsableSymbols(inputs)
    ensures forall t :: 0 <= t < |Reported(first) + rest| ==> 0 <= (Reported(first) + rest)[t].confidence <= 100
  {
    var rows := Reported(first) + rest;
    if first.Some? {
      assert rows[1..] == rest;
    } else {
      assert rows == rest;
    }
  }

  /** A whole day: load the state, run over the universe, save the state,
      write the report. The state file is written before the report, so a
      day without a single reportable asset still saves its state. */
  function LegacyDay(file: Option<LegacyFile>, inputs: seq<LegacyInput>, history: seq<ReportRow>, stamp: Stamp):
    (r: Option<(LegacyFile, seq<ReportRow>, seq<ReportRow>)>)
    requires LegacyPriced(inputs)
    ensures r.Some? ==> |r.value.1| >= |history| && r.value.1[..|history|] == history
    ensures r.Some? ==> ByConfidence(r.value.2) && r.value.1[|history|..] == r.value.2
    ensures r.Some? ==> LoadLegacy(Some(r.value.0)).holdings.Keys == LoadLegacy(file).holdings.Keys
    ensures r.Some? && LegacyValid(LoadLegacy(file)) ==> LegacyValid(LoadLegacy(Some(r.value.0)))
    ensures file.None? && (forall j :: 0 <= j < |inputs| ==> inputs[j].symbol in LegacyAssets) ==> r.Some?
    ensures r.Some? ==> multiset(Symbols(r.value.2)) == multiset(UsableSymbols(inputs))
  {
    var st := LoadLegacy(file);
    match RunLegacy(st, inputs, stamp)
    case None => None
    case Some(run) =>
      LegacySaveLoadRoundTrip(run.0);
      var report := WriteReport(history, run.1);
      PermutedSymbols(report.1, run.1);
      Some((SaveLegacy(run.0), report.0, report.1))
  }

  lemma SymbolsAppend(a: seq<ReportRow>, b: seq<ReportRow>)
    ensures Symbols(a + b) == Symbols(a) + Symbols(b)
  {
    var l, r := Symbols(a + b), Symbols(a) + Symbols(b);
    forall t | 0 <= t < |l|
      ensures l[t] == r[t]
    {
      if t < |a| {
        assert (a + b)[t] == a[t];
      } else {
        assert (a + b)[t] == b[t - |a|];
      }
    }
  }

  /** Reordering the rows reorders their symbols the same way. */
  lemma {:induction false} PermutedSymbols(a: seq<ReportRow>, b: seq<ReportRow>)
    requires multiset(a) == multiset(b)
    ensures multiset(Symbols(a)) == multiset(Symbols(b))
    decreases |a|
  {
    if |a| == 0 {
      assert |b| == |multiset(b)|;
    } else {
      var x := a[0];
      assert x in multiset(b);
      var i :| 0 <= i < |b| && b[i] == x;
      var before, after := b[..i], b[i + 1..];
      assert b == before + [x] + after;
      assert a == [x] + a[1..];
      assert multiset(a) == multiset{x} + multiset(a[1..]);
      assert multiset(b) == multiset(before) + multiset{x} + multiset(after);
      assert multiset(before + after) == multiset(before) + multiset(after);
      assert multiset(a[1..]) == multiset(a) - multiset{x};
      assert multiset(before + after) == multiset(b) - multiset{x};
      PermutedSymbols(a[1..], before + after);
      SymbolsAppend([x], a[1..]);
      SymbolsAppend(before + [x], after);
      SymbolsAppend(before, [x]);
      SymbolsAppend(before, after);
      assert Symbols([x]) == [x.asset];
      assert Symbols(b) == Symbols(before) + [x.asset] + Symbols(after);
      assert Symbols(a) == [x.asset] + Symbols(a[1..]);
      assert multiset(Symbols(a)) == multiset{x.asset} + multiset(Symbols(a[1..]));
      assert multiset(Symbols(b)) == multiset(Symbols(before)) + multiset{x.asset} + multiset(Symbols(after));
      assert multiset(Symbols(before + after)) == multiset(Symbols(before)) + multiset(Symbols(after));
      assert multiset(Symbols(a[1..])) == multiset(Symbols(before)) + multiset(Symbols(after));
      MultisetSwap(multiset{x.asset}, multiset(Symbols(before)), multiset(Symbols(after)));
    }
  }

  lemma MultisetSwap<T>(x: multiset<T>, p: multiset<T>, q: multiset<T>)
    ensures x + (p + q) == p + x + q
  {
  }
}

=== FILE: legacy_scoring.dfy ===
/** Scoring of the earlier engine variant: the RSI rule is graded by how far
    the RSI lies beyond its threshold, a Bollinger-band rule is added, and an
    undefined indicator switches off only the rule that reads it. */
module LegacyScoring {
  import opened Wrappers
  import opened Numeric
  import opened Records

  /** The latest row of an asset: its close and the indicators, `None` where
      pandas reports NaN. */
  datatype Snapshot = Snapshot(
    close: real,
    rsi: Option<real>,
    ema20: Option<real>,
    ema50: Option<real>,
    macd: Option<real>,
    macdSignal: Option<real>,
    bbUpper: Option<real>,
    bbLower: Option<real>)

  /** Buy and sell confidence before the decision. */
  datatype Score = Score(buy: real, sell: real)

  const RulePoints: real := 25.0

  /** The four rules of the scorer. */
  datatype Rule = RsiRule | EmaRule | MacdRule | BollingerRule

  /** The graded RSI check: below 30 the buy side gains 25 points scaled by
      how far the RSI sits under 30; above 70 the sell side likewise. */
  function RsiStep(s: Snapshot, r: Score): Score
  {
    if s.rsi.Some? then
      if s.rsi.value < 30.0 then r.(buy := r.buy + (30.0 - s.rsi.value) / 30.0 * RulePoints)
      else if s.rsi.value > 70.0 then r.(sell := r.sell + (s.rsi.value - 70.0) / 30.0 * RulePoints)
      else r
    else r
  }

  function EmaStep(s: Snapshot, r: Score): Score
  {
    if s.ema20.Some? && s.ema50.Some? then
      if s.ema20.value > s.ema50.value then r.(buy := r.buy + RulePoints)
      else r.(sell := r.sell + RulePoints)
    else r
  }

  function MacdStep(s: Snapshot, r: Score): Score
  {
    if s.macd.Some? && s.macdSignal.Some? then
      if s.macd.value > s.macdSignal.value then r.(buy := r.buy + RulePoints)
      else r.(sell := r.sell + RulePoints)
    else r
  }

  function BollingerStep(s: Snapshot, r: Score): Score
  {
    if s.bbUpper.Some? && s.bbLower.Some? then
      if s.close < s.bbLower.value then r.(buy := r.buy + RulePoints)
      else if s.close > s.bbUpper.value then r.(sell := r.sell + RulePoints)
      else r
    else r
  }

  /** The RSI, EMA, MACD and Bollinger checks applied one after the other,
      each only when its indicators are defined. Both sides are never
      negative, whatever the indicator values. */
  function GradedScores(s: Snapshot): (r: Score)
    ensures r.buy >= 0.0 && r.sell >= 0.0
  {
    BollingerStep(s, MacdStep(s, EmaStep(s, RsiStep(s, Score(0.0, 0.0)))))
  }

  /** The points one rule gives on its own, as a reference for the scorer. */
  function Contribution(s: Snapshot, rule: Rule): Score
  {
    match rule
    case RsiRule =>
      if s.rsi.None? then Score(0.0, 0.0)
      else if s.rsi.value < 30.0 then Score((30.0 - s.rsi.value) * 25.0 / 30.0, 0.0)
      else if s.rsi.value > 70.0 then Score(0.0, (s.rsi.value - 70.0) * 25.0 / 30.0)
      else Score(0.0, 0.0)
    case EmaRule =>
      if s.ema20.None? || s.ema50.None? then Score(0.0, 0.0)
      else if s.ema20.value > s.ema50.value then Score(25.0, 0.0) else Score(0.0, 25.0)
    case MacdRule =>
      if s.macd.None? || s.macdSignal.None? then Score(0.0, 0.0)
      else if s.macd.value > s.macdSignal.value then Score(25.0, 0.0) else Score(0.0, 25.0)
    case BollingerRule =>
      if s.bbUpper.None? || s.bbLower.None? then Score(0.0, 0.0)
      else if s.close < s.bbLower.value then Score(25.0, 0.0)
      else if s.close > s.bbUpper.value then Score(0.0, 25.0)
      else Score(0.0, 0.0)
  }

  function Sum(a: Score, b: Score): Score
  {
    Score(a.buy + b.buy, a.sell + b.sell)
  }

  function Minus(a: Score, b: Score): Score
  {
    Score(a.buy - b.buy, a.sell - b.sell)
  }

  /** The snapshot with the indicators of `rule` undefined. */
  function Disable(s: Snapshot, rule: Rule): Snapshot
  {
    match rule
    case RsiRule => s.(rsi := None)
    case EmaRule => s.(ema20 := None, ema50 := None)
    case MacdRule => s.(macd := None, macdSignal := None)
    case BollingerRule => s.(bbUpper := None, bbLower := None)
  }

  /** Each check adds exactly the points its rule gives on its own. */
  lemma StepAddsContribution(s: Snapshot, r: Score)
    ensures RsiStep(s, r) == Sum(r, Contribution(s, RsiRule))
    ensures EmaStep(s, r) == Sum(r, Contribution(s, EmaRule))
    ensures MacdStep(s, r) == Sum(r, Contribution(s, MacdRule))
    ensures BollingerStep(s, r) == Sum(r, Contribution(s, BollingerRule))
  {
    if s.rsi.Some? && s.rsi.value < 30.0 {
      assert (30.0 - s.rsi.value) / 30.0 * RulePoints == (30.0 - s.rsi.value) * 25.0 / 30.0;
    }
    if s.rsi.Some? && s.rsi.value > 70.0 {
      assert (s.rsi.value - 70.0) / 30.0 * RulePoints == (s.rsi.value - 70.0) * 25.0 / 30.0;
    }
  }

  /** The total of the four rules taken on their own. */
  function RuleTotal(s: Snapshot): Score
  {
    Sum(Sum(Sum(Contribution(s, RsiRule), Contribution(s, EmaRule)), Contribution(s, MacdRule)),
        Contribution(s, BollingerRule))
  }

  /** The scorer is the sum of the four rules taken on their own. */
  lemma ScoresAreSumOfRules(s: Snapshot)
    ensures GradedScores(s) == RuleTotal(s)
  {
    var r1 := RsiStep(s, Score(0.0, 0.0));
    StepAddsContribution(s, Score(0.0, 0.0));
    StepAddsContribution(s, r1);
    var r2 := EmaStep(s, r1);
    StepAddsContribution(s, r2);
    var r3 := MacdStep(s, r2);
    StepAddsContribution(s, r3);
  }

  /** An undefined indicator switches off its own rule and no other: the
      asset is still scored by the remaining rules. */
  lemma UndefinedDisablesOnlyItsRule(s: Snapshot, rule: Rule)
    ensures GradedScores(Disable(s, rule)) == Minus(GradedScores(s), Contribution(s, rule))
    ensures Contribution(Disable(s, rule), rule) == Score(0.0, 0.0)
    ensures forall other :: other != rule ==> Contribution(Disable(s, rule), other) == Contribution(s, other)
  {
    forall other | other != rule
      ensures Contribution(Disable(s, rule), other) == Contribution(s, other)
    {
      DisableKeepsOtherRule(s, rule, other);
    }
    DisabledRuleGivesNothing(s, rule);
    DisableRemovesContribution(s, rule);
  }

  lemma DisabledRuleGivesNothing(s: Snapshot, rule: Rule)
    ensures Contribution(Disable(s, rule), rule) == Score(0.0, 0.0)
  {
  }

  lemma DisableRemovesContribution(s: Snapshot, rule: Rule)
    ensures GradedScores(Disable(s, rule)) == Minus(GradedScores(s), Contribution(s, rule))
  {
    var d := Disable(s, rule);
    ScoresAreSumOfRules(s);
    ScoresAreSumOfRules(d);
    DisabledRuleGivesNothing(s, rule);
    var a, b, c, e := Contribution(s, RsiRule), Contribution(s, EmaRule), Contribution(s, MacdRule), Contribution(s, BollingerRule);
    match rule
    case RsiRule =>
      DisableKeepsOtherRule(s, rule, EmaRule);
      DisableKeepsOtherRule(s, rule, MacdRule);
      DisableKeepsOtherRule(s, rule, BollingerRule);
      SumWithout(rule, a, b, c, e, a);
    case EmaRule =>
      DisableKeepsOtherRule(s, rule, RsiRule);
      DisableKeepsOtherRule(s, rule, MacdRule);
      DisableKeepsOtherRule(s, rule, BollingerRule);
      SumWithout(rule, a, b, c, e, b);
    case MacdRule =>
      DisableKeepsOtherRule(s, rule, RsiRule);
      DisableKeepsOtherRule(s, rule, EmaRule);
      DisableKeepsOtherRule(s, rule, BollingerRule);
      SumWithout(rule, a, b, c, e, c);
    case BollingerRule =>
      DisableKeepsOtherRule(s, rule, RsiRule);
      DisableKeepsOtherRule(s, rule, EmaRule);
      DisableKeepsOtherRule(s, rule, MacdRule);
      SumWithout(rule, a, b, c, e, e);
  }

  /** Putting `x` into one slot of a four-way sum and taking it out again
      leaves the sum with that slot empty. */
  lemma SumWithout(slot: Rule, a: Score, b: Score, c: Score, e: Score, x: Score)
    ensures slot == RsiRule ==> Minus(Sum(Sum(Sum(x, b), c), e), x) == Sum(Sum(Sum(Score(0.0, 0.0), b), c), e)
    ensures slot == EmaRule ==> Minus(Sum(Sum(Sum(a, x), c), e), x) == Sum(Sum(Sum(a, Score(0.0, 0.0)), c), e)
    ensures slot == MacdRule ==> Minus(Sum(Sum(Sum(a, b), x), e), x) == Sum(Sum(Sum(a, b), Score(0.0, 0.0)), e)
    ensures slot == BollingerRule ==> Minus(Sum(Sum(Sum(a, b), c), x), x) == Sum(Sum(Sum(a, b), c), Score(0.0, 0.0))
  {
  }

  lemma DisableKeepsOtherRule(s: Snapshot, rule: Rule, other: Rule)
    requires other != rule
    ensures Contribution(Disable(s, rule), other) == Contribution(s, other)
  {
    match rule
    case RsiRule =>
    case EmaRule =>
    case MacdRule =>
    case BollingerRule =>
  }

  /** For an RSI in [0, 100], the graded rule gives between nothing and 25
      points to one side: a positive share of 25 below 30 to buy, above 70
      to sell, and nothing in between. */
  lemma RsiGrade(rsi: real)
    requires 0.0 <= rsi <= 100.0
    ensures var c := Contribution(Snapshot(0.0, Some(rsi), None, None, None, None, None, None), RsiRule);
      && (rsi < 30.0 ==> 0.0 < c.buy <= 25.0 && c.sell == 0.0)
      && (rsi > 70.0 ==> 0.0 < c.sell <= 25.0 && c.buy == 0.0)
      && (30.0 <= rsi <= 70.0 ==> c == Score(0.0, 0.0))
  {
  }

  /** The Bollinger rule with both bands defined: 25 to buy below the lower
      band, 25 to sell above the upper band, nothing inside the band. */
  lemma BollingerBreach(s: Snapshot)
    requires s.bbUpper.Some? && s.bbLower.Some?
    ensures s.close < s.bbLower.value ==> Contribution(s, BollingerRule) == Score(25.0, 0.0)
    ensures s.bbLower.value <= s.close && s.close > s.bbUpper.value ==> Contribution(s, BollingerRule) == Score(0.0, 25.0)
    ensures s.bbLower.value <= s.close <= s.bbUpper.value ==> Contribution(s, BollingerRule) == Score(0.0, 0.0)
  {
  }

  /** BUY when the buy score beats the sell score and is positive, SELL in
      the symmetric case, HOLD with confidence 0 otherwise. The confidence
      is the winning score truncated to an integer and capped at 100. */
  function LegacyDecide(s: Snapshot): (sig: Signal)
    ensures
      var sc := GradedScores(s);
      && (sig.decision == Buy <==> sc.buy > sc.sell && sc.buy > 0.0)
      && (sig.decision == Sell <==> sc.sell > sc.buy && sc.sell > 0.0)
      && (sig.decision == Buy ==> sig.confidence == Min(sc.buy.Floor, 100))
      && (sig.decision == Sell ==> sig.confidence == Min(sc.sell.Floor, 100))
      && (sig.decision == Hold ==> sig.confidence == 0)
    ensures 0 <= sig.confidence <= 100
    ensures sig.decision == Buy <==> GradedScores(s).buy > GradedScores(s).sell
  {
    var sc := GradedScores(s);
    if sc.buy > sc.sell && sc.buy > 0.0 then Signal(Buy, Min(Trunc(sc.buy), 100))
    else if sc.sell > sc.buy && sc.sell > 0.0 then Signal(Sell, Min(Trunc(sc.sell), 100))
    else Signal(Hold, 0)
  }

  function Min(a: int, b: int): int
  {
    if a < b then a else b
  }

  /** A bar on which every buy rule fires: RSI 25, EMA20 above EMA50, MACD
      above its signal and the close under the lower band give a buy score of
      25 * 5/30 + 75 and a BUY at confidence 79. */
  lemma AllBuyRulesExample()
    ensures
      var s := Snapshot(90.0, Some(25.0), Some(2.0), Some(1.0), Some(1.0), Some(0.5), Some(110.0), Some(95.0));
      GradedScores(s) == Score(475.0 / 6.0, 0.0) && LegacyDecide(s) == Signal(Buy, 79)
  {
    var s := Snapshot(90.0, Some(25.0), Some(2.0), Some(1.0), Some(1.0), Some(0.5), Some(110.0), Some(95.0));
    assert GradedScores(s) == Score(475.0 / 6.0, 0.0);
    assert (475.0 / 6.0).Floor == 79;
  }
}

=== FILE: lexicographic.dfy ===
/** Python's ordering of strings: code point by code point, a proper prefix
    before any of its extensions. */
module Lexicographic {

  /** `a` sorts strictly before `b`. */
  predicate LexLess(a: string, b: string)
    decreases |a|
  {
    |b| > 0 && (|a| == 0 || a[0] < b[0] || (a[0] == b[0] && LexLess(a[1..], b[1..])))
  }

  /** `a` and `b` agree on their first `k` characters. */
  predicate SharePrefix(a: string, b: string, k: nat)
  {
    k <= |a| && k <= |b| && forall i :: 0 <= i < k ==> a[i] == b[i]
  }

  /** The ordering stated without recursion: `a` is before `b` when it is a
      proper prefix of `b`, or when at the first position where they differ
      `a` holds the smaller character. */
  lemma {:induction false} LexLessByFirstDifference(a: string, b: string)
    ensures LexLess(a, b) <==>
      || (|a| < |b| && SharePrefix(a, b, |a|))
      || (exists k :: 0 <= k < |a| && k < |b| && SharePrefix(a, b, k) && a[k] < b[k])
    decreases |a|
  {
    if |a| == 0 || |b| == 0 {
    } else if a[0] < b[0] {
      assert SharePrefix(a, b, 0);
    } else if a[0] > b[0] {
      forall k | 0 < k <= |a| && k <= |b|
        ensures !SharePrefix(a, b, k)
      {
      }
    } else {
      var a', b' := a[1..], b[1..];
      LexLessByFirstDifference(a', b');
      forall k | 0 <= k <= |a'| && k <= |b'|
        ensures SharePrefix(a', b', k) <==> SharePrefix(a, b, k + 1)
      {
        if SharePrefix(a', b', k) {
          forall i | 0 <= i < k + 1
            ensures a[i] == b[i]
          {
            if i > 0 {
              assert a[i] == a'[i - 1] && b[i] == b'[i - 1];
            }
          }
        }
        if SharePrefix(a, b, k + 1) {
          forall i | 0 <= i < k
            ensures a'[i] == b'[i]
          {
            assert a'[i] == a[i + 1] && b'[i] == b[i + 1];
          }
        }
      }
      if exists k :: 0 <= k < |a| && k < |b| && SharePrefix(a, b, k) && a[k] < b[k] {
        var k :| 0 <= k < |a| && k < |b| && SharePrefix(a, b, k) && a[k] < b[k];
        assert k > 0;
        assert a'[k - 1] == a[k] && b'[k - 1] == b[k];
        assert SharePrefix(a', b', k - 1);
      }
      if exists k :: 0 <= k < |a'| && k < |b'| && SharePrefix(a', b', k) && a'[k] < b'[k] {
        var k :| 0 <= k < |a'| && k < |b'| && SharePrefix(a', b', k) && a'[k] < b'[k];
        assert a[k + 1] == a'[k] && b[k + 1] == b'[k];
        assert SharePrefix(a, b, k + 1);
      }
    }
  }

  lemma {:induction false} LexIrreflexive(a: string)
    ensures !LexLess(a, a)
    decreases |a|
  {
    if |a| > 0 {
      LexIrreflexive(a[1..]);
    }
  }

  lemma {:induction false} LexAsymmetric(a: string, b: string)
    ensures !(LexLess(a, b) && LexLess(b, a))
    decreases |a|
  {
    if |a| > 0 && |b| > 0 && a[0] == b[0] {
      LexAsymmetric(a[1..], b[1..]);
    }
  }

  lemma {:induction false} LexTransitive(a: string, b: string, c: string)
    requires LexLess(a, b) && LexLess(b, c)
    ensures LexLess(a, c)
    decreases |a|
  {
    if |a| > 0 && a[0] == b[0] && b[0] == c[0] {
      LexTransitive(a[1..], b[1..], c[1..]);
    }
  }

  /** Any two different strings are ordered one way or the other. */
  lemma {:induction false} LexTotal(a: string, b: string)
    requires a != b
    ensures LexLess(a, b) || LexLess(b, a)
    decreases |a|
  {
    if |a| > 0 && |b| > 0 && a[0] == b[0] {
      assert a == [a[0]] + a[1..] && b == [b[0]] + b[1..];
      LexTotal(a[1..], b[1..]);
    }
  }

  predicate StrictlyAscending(xs: seq<string>)
  {
    forall i, j :: 0 <= i < j < |xs| ==> LexLess(xs[i], xs[j])
  }

  function Elements(xs: seq<string>): set<string>
  {
    set x | x in xs
  }

  /** Adds `x` to a strictly ascending list unless it is already there. */
  function InsertUnique(x: string, xs: seq<string>): (r: seq<string>)
    requires StrictlyAscending(xs)
    ensures StrictlyAscending(r)
    ensures Elements(r) == Elements(xs) + {x}
  {
    if |xs| == 0 then [x]
    else if x == xs[0] then
      ElementsCons(xs[0], xs[1..]);
      xs
    else if LexLess(x, xs[0]) then
      forall j | 0 <= j < |xs|
        ensures LexLess(x, xs[j])
      {
        if j > 0 {
          LexTransitive(x, xs[0], xs[j]);
        }
      }
      ConsAscending(x, xs);
      ElementsCons(x, xs);
      [x] + xs
    else
      LexTotal(x, xs[0]);
      var tail := InsertUnique(x, xs[1..]);
      ElementsCons(xs[0], xs[1..]);
      BelowAll(xs[0], xs[1..], x, tail);
      ConsAscending(xs[0], tail);
      ElementsCons(xs[0], tail);
      [xs[0]] + tail
  }

  lemma ElementsCons(y: string, s: seq<string>)
    ensures Elements([y] + s) == {y} + Elements(s)
  {
    assert forall z :: z in [y] + s <==> z == y || z in s;
  }

  /** A string below every element of an ascending list can go in front. */
  lemma ConsAscending(y: string, s: seq<string>)
    requires StrictlyAscending(s)
    requires forall j :: 0 <= j < |s| ==> LexLess(y, s[j])
    ensures StrictlyAscending([y] + s)
  {
    var r := [y] + s;
    forall i, j | 0 <= i < j < |r|
      ensures LexLess(r[i], r[j])
    {
      assert r[j] == s[j - 1];
      if i > 0 {
        assert r[i] == s[i - 1];
      }
    }
  }

  /** The head of an ascending list is below everything the rest of the
      list and a larger string are combined into. */
  lemma BelowAll(y: string, s: seq<string>, x: string, t: seq<string>)
    requires StrictlyAscending([y] + s) && LexLess(y, x)
    requires Elements(t) == Elements(s) + {x}
    ensures forall k :: 0 <= k < |t| ==> LexLess(y, t[k])
  {
    forall k | 0 <= k < |t|
      ensures LexLess(y, t[k])
    {
      assert t[k] in Elements(t);
      if t[k] != x {
        assert t[k] in s;
        var i :| 0 <= i < |s| && s[i] == t[k];
        assert ([y] + s)[0] == y && ([y] + s)[i + 1] == t[k];
        assert LexLess(([y] + s)[0], ([y] + s)[i + 1]);
      }
    }
  }

  /** `sorted(set(xs))`: the distinct strings of `xs`, strictly ascending. */
  function SortedUnique(xs: seq<string>): (r: seq<string>)
    ensures StrictlyAscending(r)
    ensures Elements(r) == Elements(xs)
  {
    if |xs| == 0 then []
    else
      assert Elements(xs) == Elements(xs[..|xs| - 1]) + {xs[|xs| - 1]} by {
        assert forall i :: 0 <= i < |xs| - 1 ==> xs[..|xs| - 1][i] == xs[i];
      }
      InsertUnique(xs[|xs| - 1], SortedUnique(xs[..|xs| - 1]))
  }

  lemma NoElementsIsEmpty(xs: seq<string>)
    ensures Elements(xs) == {} ==> xs == []
  {
    if |xs| > 0 {
      assert xs[0] in Elements(xs);
    }
  }

  /** A strictly ascending list holds no string twice. */
  lemma AscendingIsDistinct(xs: seq<string>)
    requires StrictlyAscending(xs)
    ensures forall i, j :: 0 <= i < j < |xs| ==> xs[i] != xs[j]
  {
    forall i, j | 0 <= i < j < |xs|
      ensures xs[i] != xs[j]
    {
      LexIrreflexive(xs[i]);
    }
  }

  /** Only one strictly ascending list has a given set of elements, so the
      result of `SortedUnique` is the one Python's `sorted` gives. */
  lemma {:induction false} AscendingIsUnique(a: seq<string>, b: seq<string>)
    requires StrictlyAscending(a) && StrictlyAscending(b)
    requires Elements(a) == Elements(b)
    ensures a == b
    decreases |a|
  {
    if |a| == 0 || |b| == 0 {
      NoElementsIsEmpty(a);
      NoElementsIsEmpty(b);
    } else {
      assert a[0] in Elements(b);
      assert b[0] in Elements(a);
      var j :| 0 <= j < |b| && b[j] == a[0];
      var i :| 0 <= i < |a| && a[i] == b[0];
      if a[0] != b[0] {
        assert i > 0 && j > 0;
        LexAsymmetric(a[0], b[0]);
        assert false;
      }
      AscendingIsDistinct(a);
      AscendingIsDistinct(b);
      assert Elements(a[1..]) == Elements(b[1..]) by {
        assert Elements(a) == {a[0]} + Elements(a[1..]) by {
          assert forall k :: 0 < k < |a| ==> a[k] == a[1..][k - 1];
        }
        assert Elements(b) == {b[0]} + Elements(b[1..]) by {
          assert forall k :: 0 < k < |b| ==> b[k] == b[1..][k - 1];
        }
        assert a[0] !in Elements(a[1..]);
        assert b[0] !in Elements(b[1..]);
      }
      AscendingIsUnique(a[1..], b[1..]);
      assert a == [a[0]] + a[1..] && b == [b[0]] + b[1..];
    }
  }
}

=== FILE: numeric.dfy ===
/** The numeric helpers of Python that the bots apply to prices and scores,
    stated over exact reals: `round(x, k)` (round half to even), `int(x)` on a
    float (truncation toward zero) and `a // b` on floats (floor division). */
module Numeric {

  /** `x` lies within `e` of `y`. */
  predicate Within(x: real, y: real, e: real)
  {
    y - e <= x <= y + e
  }

  /** 10^k as a positive integer. */
  function Pow10(k: nat): (r: nat)
    ensures r >= 1
  {
    if k == 0 then 1 else 10 * Pow10(k - 1)
  }

  /** One unit of the k-th decimal, inverted: 10^k as a real. */
  function Scale(digits: nat): (p: real)
    ensures p >= 1.0
  {
    Pow10(digits) as real
  }

  /** Nearest integer to `y`, ties going to the even neighbour, as Python's
      `round` does. */
  function RoundHalfEven(y: real): (r: int)
    ensures y - 0.5 <= r as real <= y + 0.5
    ensures y >= 0.0 ==> r >= 0
  {
    var f := y.Floor;
    var frac := y - f as real;
    if frac < 0.5 then f
    else if frac > 0.5 then f + 1
    else if f % 2 == 0 then f
    else f + 1
  }

  /** Python's `round(x, digits)` on the exact value of `x`: within half a
      unit of the k-th decimal of `x`, and never negative for a non-negative
      `x`. */
  function Round(x: real, digits: nat): (r: real)
    ensures Within(r, x, 0.5 / Scale(digits))
    ensures x >= 0.0 ==> r >= 0.0
  {
    var p := Scale(digits);
    RoundToUnfold(x, p);
    HalfUnitBounds(x, p, RoundHalfEven(x * p) as real);
    RoundTo(x, p)
  }

  /** Rounding to a whole number of `1/p` units. */
  function RoundTo(x: real, p: real): real
    requires p > 0.0
  {
    RoundHalfEven(x * p) as real / p
  }

  lemma RoundToUnfold(x: real, p: real)
    requires p > 0.0
    ensures RoundTo(x, p) == RoundHalfEven(x * p) as real / p
  {
  }

  /** `int(x)` for a float `x`: the integer part, truncated toward zero. */
  function Trunc(x: real): (r: int)
    ensures x >= 0.0 ==> r == x.Floor
    ensures x >= 0.0 ==> 0.0 <= r as real <= x < r as real + 1.0
    ensures x < 0.0 ==> x <= r as real <= 0.0 && r as real - 1.0 < x
  {
    if x >= 0.0 then x.Floor else -((-x).Floor)
  }

  /** `a // b` for floats with a positive divisor: the floor of the quotient. */
  function FloorDiv(a: real, b: real): (r: int)
    requires b > 0.0
    ensures r as real * b <= a < (r as real + 1.0) * b
  {
    var q := (a / b).Floor;
    FloorQuotient(a, b, q);
    q
  }

  lemma FloorQuotient(a: real, b: real, q: int)
    requires b > 0.0
    requires q == (a / b).Floor
    ensures q as real * b <= a < (q as real + 1.0) * b
  {
    var t := a / b;
    assert t * b == a;
    MulMonotone(q as real, t, b);
    var u := q as real + 1.0;
    StrictMulMonotone(t, u, b);
    assert a < u * b;
  }

  lemma MulMonotone(x: real, y: real, b: real)
    requires x <= y && b > 0.0
    ensures x * b <= y * b
  {
  }

  lemma StrictMulMonotone(x: real, y: real, b: real)
    requires x < y && b > 0.0
    ensures x * b < y * b
  {
  }

  lemma HalfUnitBounds(x: real, p: real, r: real)
    requires p > 0.0 && x * p - 0.5 <= r <= x * p + 0.5
    ensures x - 0.5 / p <= r / p <= x + 0.5 / p
  {
    DivideBounds(x * p - 0.5, r, x * p + 0.5, p);
    ScaleBack(x, -0.5, p);
    ScaleBack(x, 0.5, p);
  }

  lemma DivideBounds(lo: real, m: real, hi: real, p: real)
    requires lo <= m <= hi && p > 0.0
    ensures lo / p <= m / p <= hi / p
  {
  }

  lemma ScaleBack(x: real, d: real, p: real)
    requires p > 0.0
    ensures (x * p + d) / p == x + d / p
  {
    assert (x + d / p) * p == x * p + d;
  }

  /** Rounding to a whole number gives at least one exactly when the value
      is above one half: one half itself goes to the even neighbour, zero. */
  lemma RoundHalfEvenAtLeastOne(y: real)
    ensures RoundHalfEven(y) >= 1 <==> y > 0.5
  {
    var f := y.Floor;
    var r := RoundHalfEven(y);
    if y > 0.5 {
      if f < 1 {
        assert f == 0;
        assert r == 1;
      }
    }
  }

  /** Rounding to cents gives at least one cent exactly when the value is
      above half a cent. */
  lemma RoundCentsAtLeastOneCent(x: real)
    ensures Round(x, 2) >= 0.01 <==> x > 0.005
  {
    assert Pow10(2) == 100 by {
      assert Pow10(1) == 10;
    }
    assert Scale(2) == 100.0;
    var r := RoundHalfEven(x * 100.0);
    assert Round(x, 2) == r as real / 100.0;
    RoundHalfEvenAtLeastOne(x * 100.0);
  }

  /** Rounding commutes with shifting by an even whole number of units. */
  lemma RoundHalfEvenShift(y: real, n: int)
    ensures RoundHalfEven(y + (2 * n) as real) == RoundHalfEven(y) + 2 * n
  {
    var m := 2 * n;
    var f := y.Floor;
    assert f as real <= y < f as real + 1.0;
    assert (y + m as real).Floor == f + m;
    assert (f + m) % 2 == f % 2;
  }

  /** Shifting by an even number of cents commutes with rounding to cents. */
  lemma RoundCentsShift(x: real, c: int)
    ensures Round(x - (2 * c) as real / 100.0, 2) == Round(x, 2) - (2 * c) as real / 100.0
  {
    assert Pow10(2) == 100 by {
      assert Pow10(1) == 10;
    }
    assert Scale(2) == 100.0;
    var y := x * 100.0;
    assert (x - (2 * c) as real / 100.0) * 100.0 == y + (2 * (-c)) as real;
    RoundHalfEvenShift(y, -c);
  }

  /** `round(x, k)` leaves `x` unchanged exactly when `x` is already a whole
      number of units of the k-th decimal. */
  lemma RoundFixedPoint(x: real, digits: nat)
    ensures Round(x, digits) == x <==> (x * Scale(digits)).Floor as real == x * Scale(digits)
  {
    var p := Scale(digits);
    assert p >= 1.0;
    assert Round(x, digits) == RoundTo(x, p);
    RoundToUnfold(x, p);
    var y := x * p;
    var r := RoundHalfEven(y);
    assert Round(x, digits) == r as real / p;
    if y.Floor as real == y {
      assert r == y.Floor;
      ScaleBack(x, 0.0, p);
    } else if Round(x, digits) == x {
      DivCancel(r as real, x, p);
      assert false;
    }
  }

  lemma DivCancel(r: real, x: real, p: real)
    requires p > 0.0 && r / p == x
    ensures r == x * p
  {
  }
}

=== FILE: performance.dfy ===
/** The per-asset profit-and-loss curve of the dashboard: a one-unit
    open/close state machine over the asset's trade rows in date order. */
module Performance {
  import opened Wrappers
  import opened Numeric
  import opened Records
  import opened TradeLog

  /** Whether one unit is held, what it cost, and the realised profit so
      far. */
  datatype Tracker = Tracker(position: int, cost: real, profit: real)

  const Start: Tracker := Tracker(0, 0.0, 0.0)

  /** One point of the curve: day, decision, price, realised profit to two
      decimals, and the value of the open unit (0 when flat). */
  datatype PerfPoint = PerfPoint(day: int, decision: Decision, price: real, cumulativeProfit: real, positionValue: real)

  /** Flat with no cost, or holding exactly one unit. */
  predicate Consistent(tr: Tracker)
  {
    (tr.position == 0 && tr.cost == 0.0) || tr.position == 1
  }

  /** One trade row. A BUY while flat opens a unit at the row's price; a
      SELL while holding closes it and realises price minus cost; any other
      row while holding only reports the unit at the row's price; any other
      row while flat is not reported. */
  function PerfStep(tr: Tracker, row: TradeRecord): (r: (Tracker, Option<PerfPoint>))
    ensures Consistent(tr) ==> Consistent(r.0)
    ensures row.decision == Buy && tr.position == 0 ==>
      && r.0 == Tracker(1, row.price, tr.profit)
      && r.1 == Some(PerfPoint(row.stamp.day, Buy, row.price, Round(tr.profit, 2), Round(row.price, 2)))
    ensures row.decision == Sell && tr.position > 0 ==>
      && r.0 == Tracker(0, 0.0, tr.profit + (row.price - tr.cost))
      && r.1 == Some(PerfPoint(row.stamp.day, Sell, row.price, Round(r.0.profit, 2), 0.0))
    ensures row.decision != Sell && tr.position > 0 ==>
      && r.0 == tr
      && r.1 == Some(PerfPoint(row.stamp.day, row.decision, row.price, Round(tr.profit, 2), Round(row.price, 2)))
    ensures row.decision != Buy && tr.position <= 0 ==> r == (tr, None)
    ensures r.0.profit != tr.profit ==> row.decision == Sell && tr.position > 0
  {
    if row.decision == Buy && tr.position == 0 then
      (Tracker(1, row.price, tr.profit),
       Some(PerfPoint(row.stamp.day, Buy, row.price, Round(tr.profit, 2), Round(row.price, 2))))
    else if row.decision == Sell && tr.position > 0 then
      var profit := tr.profit + (row.price - tr.cost);
      (Tracker(0, 0.0, profit), Some(PerfPoint(row.stamp.day, Sell, row.price, Round(profit, 2), 0.0)))
    else if tr.position > 0 then
      (tr, Some(PerfPoint(row.stamp.day, row.decision, row.price, Round(tr.profit, 2), Round(row.price, 2))))
    else
      (tr, None)
  }

  function Emitted(p: Option<PerfPoint>): seq<PerfPoint>
  {
    if p.Some? then [p.value] else []
  }

  /** The state machine run over the rows in order. */
  function PerfRun(tr: Tracker, rows: seq<TradeRecord>): (r: (Tracker, seq<PerfPoint>))
    ensures Consistent(tr) ==> Consistent(r.0)
    ensures |r.1| <= |rows|
    decreases |rows|
  {
    if |rows| == 0 then (tr, [])
    else
      var first := PerfStep(tr, rows[0]);
      var rest := PerfRun(first.0, rows[1..]);
      (rest.0, Emitted(first.1) + rest.1)
  }

  const PerformanceLimit: nat := 50

  /** The performance view of one asset: the last 50 points of the curve. */
  function AssetPerformance(log: seq<TradeRecord>, asset: string): (r: seq<PerfPoint>)
    ensures |r| <= PerformanceLimit
    ensures var curve := PerfRun(Start, ForAsset(log, asset)).1;
      && |r| == (if |curve| < PerformanceLimit then |curve| else PerformanceLimit)
      && r == curve[|curve| - |r|..]
  {
    Tail(PerfRun(Start, ForAsset(log, asset)).1, PerformanceLimit)
  }

  /** From a flat start the curve is empty exactly when no row is a BUY:
      nothing is reported before the first unit is bought. */
  lemma {:induction false} EmptyCurveIffNoBuy(profit: real, rows: seq<TradeRecord>)
    ensures PerfRun(Tracker(0, 0.0, profit), rows).1 == [] <==>
      forall i :: 0 <= i < |rows| ==> rows[i].decision != Buy
    decreases |rows|
  {
    if |rows| > 0 {
      EmptyCurveIffNoBuy(profit, rows[1..]);
      assert forall i :: 0 < i < |rows| ==> rows[i] == rows[1..][i - 1];
    }
  }

  /** The first row at or after the start with the given decision. */
  function FirstWith(rows: seq<TradeRecord>, d: Decision): (r: Option<nat>)
    ensures r.Some? ==> r.value < |rows| && rows[r.value].decision == d
    ensures r.Some? ==> forall k :: 0 <= k < r.value ==> rows[k].decision != d
    ensures r.None? ==> forall k :: 0 <= k < |rows| ==> rows[k].decision != d
  {
    if |rows| == 0 then None
    else if rows[0].decision == d then Some(0)
    else
      match FirstWith(rows[1..], d)
      case None => None
      case Some(i) => Some(i + 1)
  }

  /** Realised profit from a flat start, by search rather than by state:
      find the first BUY, then the first SELL after it, take the difference
      of their prices and carry on after the SELL. */
  function Realised(rows: seq<TradeRecord>): real
    decreases |rows|, 1
  {
    match FirstWith(rows, Buy)
    case None => 0.0
    case Some(i) => ClosedFrom(rows[i].price, rows[i + 1..])
  }

  /** Realised profit while holding a unit bought at `opening`. */
  function ClosedFrom(opening: real, rows: seq<TradeRecord>): real
    decreases |rows|, 0
  {
    match FirstWith(rows, Sell)
    case None => 0.0
    case Some(j) => rows[j].price - opening + Realised(rows[j + 1..])
  }

  /** Skipping a row that is not the one searched for does not move the
      search result. */
  lemma SkipRealised(rows: seq<TradeRecord>)
    requires |rows| > 0 && rows[0].decision != Buy
    ensures Realised(rows) == Realised(rows[1..])
  {
    match FirstWith(rows[1..], Buy)
    case None =>
    case Some(i) =>
      assert rows[i + 2..] == rows[1..][i + 1..];
  }

  lemma SkipClosed(opening: real, rows: seq<TradeRecord>)
    requires |rows| > 0 && rows[0].decision != Sell
    ensures ClosedFrom(opening, rows) == ClosedFrom(opening, rows[1..])
  {
    match FirstWith(rows[1..], Sell)
    case None =>
    case Some(j) =>
      assert rows[j + 2..] == rows[1..][j + 1..];
  }

  /** The state machine's final profit is the search-based realised profit:
      the curve's profit is the sum, over completed BUY-then-SELL round
      trips, of the SELL price minus the opening BUY price. */
  lemma {:induction false} RunRealises(tr: Tracker, rows: seq<TradeRecord>)
    requires tr.position == 0 || tr.position == 1
    ensures PerfRun(tr, rows).0.profit ==
      tr.profit + (if tr.position == 0 then Realised(rows) else ClosedFrom(tr.cost, rows))
    decreases |rows|
  {
    if |rows| > 0 {
      var row := rows[0];
      var next := PerfStep(tr, row).0;
      assert PerfRun(tr, rows).0 == PerfRun(next, rows[1..]).0;
      RunRealises(next, rows[1..]);
      if tr.position == 0 {
        if row.decision == Buy {
          OpenRealised(rows);
        } else {
          SkipRealised(rows);
        }
      } else {
        if row.decision == Sell {
          CloseRealised(tr.cost, rows);
        } else {
          SkipClosed(tr.cost, rows);
        }
      }
    }
  }

  lemma OpenRealised(rows: seq<TradeRecord>)
    requires |rows| > 0 && rows[0].decision == Buy
    ensures Realised(rows) == ClosedFrom(rows[0].price, rows[1..])
  {
  }

  lemma CloseRealised(opening: real, rows: seq<TradeRecord>)
    requires |rows| > 0 && rows[0].decision == Sell
    ensures ClosedFrom(opening, rows) == rows[0].price - opening + Realised(rows[1..])
  {
  }

  /** From the dashboard's starting point the final realised profit is the
      sum of the completed round trips. */
  lemma CurveProfit(rows: seq<TradeRecord>)
    ensures PerfRun(Start, rows).0.profit == Realised(rows)
    ensures Consistent(PerfRun(Start, rows).0)
  {
    RunRealises(Start, rows);
  }

  /** A BUY followed by a SELL realises their price difference. */
  lemma OneRoundTrip(buy: TradeRecord, sell: TradeRecord)
    requires buy.decision == Buy && sell.decision == Sell
    ensures PerfRun(Start, [buy, sell]).0 == Tracker(0, 0.0, sell.price - buy.price)
    ensures |PerfRun(Start, [buy, sell]).1| == 2
  {
    var s1 := PerfStep(Start, buy).0;
    assert s1 == Tracker(1, buy.price, 0.0);
    var s2 := PerfStep(s1, sell).0;
    assert s2 == Tracker(0, 0.0, sell.price - buy.price);
    assert [buy, sell][1..] == [sell];
    assert [sell][1..] == [];
    assert PerfRun(s2, []).0 == s2;
    assert PerfRun(s1, [sell]).0 == s2;
  }
}

=== FILE: portfolio.dfy ===
/** Cash and positions of the fee-aware engine, the paper-trading step that
    applies one decision for one asset, and the state file it is loaded from
    and saved to. */
module Portfolio {
  import opened Wrappers
  import opened Numeric
  import opened Records

  const InitialCapital: real := 10000.0
  const RiskPerTrade: real := 0.02
  const ConfidenceThreshold: int := 30
  /** Proportional broker fee: 0.1% of the traded value. */
  const BrokerFee: real := 0.001
  const AllowFractionalStocks: bool := true
  const AllowFractionalEtfs: bool := false
  const MinStockFraction: real := 0.01

  const Stocks: seq<string> := [
    "AAPL", "MSFT", "NVDA", "AMZN", "GOOGL", "GOOG", "TSLA", "META",
    "ADBE", "AMD", "INTC", "CSCO", "QCOM", "CRM", "AVGO", "ORCL",
    "IBM", "TXN", "AMGN", "HON", "PEP", "KO", "MCD", "WMT", "CAT",
    "JNJ", "V", "HD", "BAC", "JPM", "UNH", "CVX", "XOM", "NFLX",
    "LMT", "BLK", "SPGI", "MS", "RTX"]

  const Etfs: seq<string> := [
    "SPY", "VOO", "IVV", "VTI", "QQQ", "VUG", "VEA", "VTV", "IEFA",
    "AGG", "IEMG", "IJH", "IJR", "VIG", "VYM", "SCHD", "XLK", "VT", "ACWI"]

  /** The universe, stocks first. */
  const AllAssets: seq<string> := Stocks + Etfs

  /** An asset is a stock when it is listed as one, otherwise an ETF. */
  function ClassOf(asset: string): AssetClass
  {
    if asset in Stocks then Stock else Etf
  }

  /** The broker's fractional-share policy per class. */
  function AllowsFractional(c: AssetClass): bool
  {
    if c == Stock then AllowFractionalStocks else AllowFractionalEtfs
  }

  /** Units held and the cost basis per unit, fees included. */
  datatype Position = Position(quantity: real, averagePrice: real)

  const Flat: Position := Position(0.0, 0.0)

  /** One entry of the portfolio dictionary, kept in its insertion order. */
  datatype Holding = Holding(asset: string, position: Position)

  datatype State = State(cash: real, holdings: seq<Holding>)

  predicate ValidPosition(p: Position)
  {
    p.quantity >= 0.0 && p.averagePrice >= 0.0 && (p.quantity == 0.0 ==> p.averagePrice == 0.0)
  }

  /** Dictionary keys are unique. */
  predicate DistinctAssets(h: seq<Holding>)
  {
    forall i, j :: 0 <= i < j < |h| ==> h[i].asset != h[j].asset
  }

  /** The state invariant: cash is never negative, no position is negative,
      a flat position carries no cost basis, and each asset appears once. */
  predicate Valid(st: State)
  {
    && st.cash >= 0.0
    && (forall i :: 0 <= i < |st.holdings| ==> ValidPosition(st.holdings[i].position))
    && DistinctAssets(st.holdings)
  }

  /** Two holding lists with the same assets in the same order. */
  predicate SameAssets(h: seq<Holding>, h': seq<Holding>)
  {
    |h| == |h'| && forall k :: 0 <= k < |h| ==> h[k].asset == h'[k].asset
  }

  /** The keys of a dictionary built from a list, in first-occurrence order. */
  function Dedup(xs: seq<string>): (r: seq<string>)
    ensures forall i, j :: 0 <= i < j < |r| ==> r[i] != r[j]
    ensures forall x :: x in r <==> x in xs
  {
    if |xs| == 0 then []
    else
      var init := Dedup(xs[..|xs| - 1]);
      var last := xs[|xs| - 1];
      assert xs == xs[..|xs| - 1] + [last];
      if last in init then init else init + [last]
  }

  function FlatHoldings(assets: seq<string>): (h: seq<Holding>)
    ensures |h| == |assets|
    ensures forall k :: 0 <= k < |h| ==> h[k] == Holding(assets[k], Flat)
  {
    if |assets| == 0 then [] else [Holding(assets[0], Flat)] + FlatHoldings(assets[1..])
  }

  /** The state of a first run: the initial capital and a flat position for
      every asset of the universe. */
  function FreshState(universe: seq<string>): (st: State)
    ensures Valid(st)
    ensures st.cash == InitialCapital
    ensures forall a :: a in universe <==> exists k :: 0 <= k < |st.holdings| && st.holdings[k].asset == a
    ensures forall k :: 0 <= k < |st.holdings| ==> st.holdings[k].position == Flat
    ensures |st.holdings| == |Dedup(universe)|
    ensures forall k :: 0 <= k < |st.holdings| ==> st.holdings[k].asset == Dedup(universe)[k]
  {
    var keys := Dedup(universe);
    var st := State(InitialCapital, FlatHoldings(keys));
    assert forall a :: a in universe ==> exists k :: 0 <= k < |st.holdings| && st.holdings[k].asset == a by {
      forall a | a in universe
        ensures exists k :: 0 <= k < |st.holdings| && st.holdings[k].asset == a
      {
        var k :| 0 <= k < |keys| && keys[k] == a;
        assert st.holdings[k].asset == a;
      }
    }
    st
  }

  /** Where `asset` sits in the dictionary, or `None` when it is not a key
      (the lookup then raises and the asset is skipped). */
  function IndexOf(h: seq<Holding>, asset: string): (r: Option<nat>)
    ensures r.Some? ==> r.value < |h| && h[r.value].asset == asset
    ensures r.None? <==> forall k :: 0 <= k < |h| ==> h[k].asset != asset
  {
    if |h| == 0 then None
    else if h[0].asset == asset then Some(0)
    else
      match IndexOf(h[1..], asset)
      case None => None
      case Some(i) => Some(i + 1)
  }

  /** The lookup depends only on the keys and their order. */
  lemma {:induction false} IndexOfSameAssets(h: seq<Holding>, h': seq<Holding>, asset: string)
    requires SameAssets(h, h')
    ensures IndexOf(h, asset) == IndexOf(h', asset)
  {
    if |h| > 0 {
      assert SameAssets(h[1..], h'[1..]) by {
        forall k | 0 <= k < |h[1..]|
          ensures h[1..][k].asset == h'[1..][k].asset
        {
          assert h[1..][k] == h[k + 1] && h'[1..][k] == h'[k + 1];
        }
      }
      IndexOfSameAssets(h[1..], h'[1..], asset);
      assert h[0].asset == h'[0].asset;
    }
  }

  /** Units bought with a risk budget at `price`: a fractional quantity when
      the class allows fractions, whole units otherwise. */
  function BuyQuantity(budget: real, price: real, fractional: bool): (q: real)
    requires price > 0.0
    ensures budget >= 0.0 ==> q >= 0.0
    ensures q > 0.0 ==> q >= MinStockFraction
  {
    if fractional then FractionalUnits(budget, price) else WholeUnits(budget, price)
  }

  /** The budget divided by the price, to two decimals, and dropped to zero
      below the minimum fraction of a unit. */
  function FractionalUnits(budget: real, price: real): (q: real)
    requires price > 0.0
    ensures budget >= 0.0 ==> q >= 0.0
    ensures q == 0.0 || (q >= MinStockFraction && Within(q, budget / price, 0.005))
    ensures budget / price >= MinStockFraction + 0.005 ==> q >= MinStockFraction
    ensures q == 0.0 <==> budget / price <= 0.005
  {
    var exact := budget / price;
    var q := Round(exact, 2);
    RoundCentsAtLeastOneCent(exact);
    assert Scale(2) == 100.0 by {
      assert Pow10(2) == 100 by { assert Pow10(1) == 10; }
    }
    if q < MinStockFraction then 0.0 else q
  }

  /** The whole units a budget pays for: `int(budget // price)`. */
  function WholeUnits(budget: real, price: real): (q: real)
    requires price > 0.0
    ensures q.Floor as real == q
    ensures q * price <= budget < (q + 1.0) * price
    ensures budget >= 0.0 ==> q >= 0.0
    ensures q > 0.0 ==> q >= 1.0
  {
    var n := FloorDiv(budget, price);
    FloorDivNonNegative(budget, price);
    n as real
  }

  lemma FloorDivNonNegative(budget: real, price: real)
    requires price > 0.0
    ensures budget >= 0.0 ==> FloorDiv(budget, price) >= 0
  {
    var n := FloorDiv(budget, price);
    if budget >= 0.0 && n < 0 {
      assert n as real + 1.0 <= 0.0;
      NonPositiveTimesPositive(n as real + 1.0, price);
    }
  }

  lemma NonPositiveTimesPositive(x: real, p: real)
    requires x <= 0.0 && p > 0.0
    ensures x * p <= 0.0
  {
  }

  /** Value of a lot with the broker fee added. */
  function CostWithFee(quantity: real, price: real): real
  {
    var cost := quantity * price;
    cost + cost * BrokerFee
  }

  lemma CostWithFeeFactor(quantity: real, price: real)
    ensures CostWithFee(quantity, price) == quantity * price * (1.0 + BrokerFee)
  {
  }

  /** Value of a lot with the broker fee taken off. */
  function ProceedsAfterFee(quantity: real, price: real): real
  {
    var value := quantity * price;
    value - value * BrokerFee
  }

  /** The position after adding a lot of `quantity` units paid `cost` in
      total, before the stored values are rounded. */
  function Blend(p: Position, quantity: real, cost: real): (r: Position)
    requires p.quantity >= 0.0 && quantity > 0.0
    ensures r.quantity == p.quantity + quantity
    ensures r.quantity * r.averagePrice == p.quantity * p.averagePrice + cost
  {
    var total := p.quantity + quantity;
    var avg := (p.quantity * p.averagePrice + cost) / total;
    assert avg * total == p.quantity * p.averagePrice + cost;
    Position(total, avg)
  }

  /** Weighted-average cost over repeated buys: two lots bought into a flat
      position average to their total cost over their total quantity. */
  lemma RepeatedBuysAverage(q1: real, c1: real, q2: real, c2: real)
    requires q1 > 0.0 && q2 > 0.0
    ensures Blend(Blend(Flat, q1, c1), q2, c2).averagePrice == (c1 + c2) / (q1 + q2)
  {
    var p1 := Blend(Flat, q1, c1);
    var p2 := Blend(p1, q2, c2);
    assert p1.quantity * p1.averagePrice == c1;
    assert p2.quantity == q1 + q2;
    assert p2.quantity * p2.averagePrice == c1 + c2;
  }

  /** The position as stored after a buy: quantity to four decimals,
      average price to cents. */
  function Stored(b: Position): Position
  {
    Position(Round(b.quantity, 4), Round(b.averagePrice, 2))
  }

  /** The stored position is within rounding of the exact blend. */
  lemma StoredBlendBounds(p: Position, q: real, cost: real)
    requires p.quantity >= 0.0 && q > 0.0
    ensures Within(Stored(Blend(p, q, cost)).quantity, p.quantity + q, 0.00005)
    ensures Within(Stored(Blend(p, q, cost)).averagePrice * (p.quantity + q),
                   p.quantity * p.averagePrice + cost, 0.005 * (p.quantity + q))
  {
    var b := Blend(p, q, cost);
    ScalesOfFourAndTwo();
    WithinScaled(Round(b.averagePrice, 2), b.averagePrice, p.quantity + q, p.quantity * p.averagePrice + cost, 0.005);
  }

  lemma WithinScaled(x: real, y: real, n: real, target: real, e: real)
    requires n > 0.0 && Within(x, y, e) && y * n == target
    ensures Within(x * n, target, e * n)
  {
    ScaledError(x, y, n, e);
  }

  lemma ScalesOfFourAndTwo()
    ensures Scale(2) == 100.0 && Scale(4) == 10000.0
  {
    assert Pow10(2) == 100 by { assert Pow10(1) == 10; }
    assert Pow10(4) == 10000 by { assert Pow10(3) == 1000; }
  }

  lemma ScaledError(x: real, y: real, n: real, e: real)
    requires n > 0.0 && Within(x, y, e)
    ensures Within(x * n, y * n, e * n)
  {
    assert x * n - y * n == (x - y) * n;
    assert y * n - x * n == (y - x) * n;
    MulMonotone(x - y, e, n);
    MulMonotone(y - x, e, n);
  }

  /** A lot of at least the minimum fraction bought at a non-negative cost
      leaves a valid position valid, and open. */
  lemma StoredBlendValid(p: Position, q: real, cost: real)
    requires ValidPosition(p) && q >= MinStockFraction && cost >= 0.0
    ensures ValidPosition(Stored(Blend(p, q, cost)))
    ensures Stored(Blend(p, q, cost)).quantity > 0.0
  {
    var b := Blend(p, q, cost);
    ScalesOfFourAndTwo();
    assert p.quantity * p.averagePrice >= 0.0;
    NonNegativeQuotient(p.quantity * p.averagePrice + cost, b.quantity);
  }

  lemma NonNegativeQuotient(a: real, b: real)
    requires a >= 0.0 && b > 0.0
    ensures a / b >= 0.0
  {
  }

  /** A BUY of the asset at `index`: sized from 2% of the cash by the class's
      fractional policy, charged the broker fee, and executed only when the
      quantity is positive and the cash covers the cost. When it executes the
      cash drops by exactly that cost and the position becomes the stored
      blend of the old position and the new lot; otherwise nothing changes. */
  function ApplyBuy(st: State, index: nat, price: real): (r: State)
    requires index < |st.holdings| && price > 0.0
    requires st.holdings[index].position.quantity >= 0.0
    ensures
      var h := st.holdings[index];
      var q := BuyQuantity(st.cash * RiskPerTrade, price, AllowsFractional(ClassOf(h.asset)));
      var cost := CostWithFee(q, price);
      && (q > 0.0 && cost <= st.cash ==>
            && r.cash == st.cash - cost
            && r.cash >= 0.0
            && r.holdings == st.holdings[index := Holding(h.asset, Stored(Blend(h.position, q, cost)))])
      && (!(q > 0.0 && cost <= st.cash) ==> r == st)
  {
    var h := st.holdings[index];
    var q := BuyQuantity(st.cash * RiskPerTrade, price, AllowsFractional(ClassOf(h.asset)));
    var cost := CostWithFee(q, price);
    if q > 0.0 && cost <= st.cash then
      var b := Blend(h.position, q, cost);
      State(st.cash - cost, st.holdings[index := Holding(h.asset, Position(Round(b.quantity, 4), Round(b.averagePrice, 2)))])
    else
      st
  }

  /** A SELL liquidates the whole position: a held position adds its value
      net of the broker fee to the cash and goes back to zero quantity at
      zero cost; a flat position changes nothing. */
  function ApplySell(st: State, index: nat, price: real): (r: State)
    requires index < |st.holdings| && price >= 0.0
    ensures
      var h := st.holdings[index];
      var q := h.position.quantity;
      && (q > 0.0 ==>
            && r.cash == st.cash + q * price * (1.0 - BrokerFee)
            && (price > 0.0 ==> r.cash > st.cash)
            && r.holdings == st.holdings[index := Holding(h.asset, Flat)])
      && (q <= 0.0 ==> r == st)
    ensures Valid(st) ==> Valid(r)
  {
    var h := st.holdings[index];
    if h.position.quantity > 0.0 then
      assert h.position.quantity * price >= 0.0;
      State(st.cash + ProceedsAfterFee(h.position.quantity, price), st.holdings[index := Holding(h.asset, Flat)])
    else
      st
  }

  /** One paper-trading step for the asset at `index`: a BUY at or above the
      confidence threshold, a SELL, or nothing. Only the traded asset's entry
      can change, the keys stay as they are, and the state invariant is kept:
      cash never goes negative and no position goes negative. */
  function Execute(st: State, index: nat, signal: Signal, price: real): (r: State)
    requires index < |st.holdings| && price > 0.0
    requires st.holdings[index].position.quantity >= 0.0
    ensures SameAssets(st.holdings, r.holdings)
    ensures forall k :: 0 <= k < |st.holdings| && k != index ==> r.holdings[k] == st.holdings[k]
    ensures Valid(st) ==> Valid(r)
    ensures signal.decision == Hold ==> r == st
    ensures signal.decision == Buy && signal.confidence < ConfidenceThreshold ==> r == st
    ensures signal.decision == Sell ==> r == ApplySell(st, index, price)
  {
    if signal.decision == Buy && signal.confidence >= ConfidenceThreshold then
      BuyKeepsValid(st, index, price);
      ApplyBuy(st, index, price)
    else if signal.decision == Sell then ApplySell(st, index, price)
    else st
  }

  /** A BUY keeps a valid state valid. */
  lemma BuyKeepsValid(st: State, index: nat, price: real)
    requires index < |st.holdings| && price > 0.0
    requires st.holdings[index].position.quantity >= 0.0
    ensures Valid(st) ==> Valid(ApplyBuy(st, index, price))
  {
    var h := st.holdings[index];
    var q := BuyQuantity(st.cash * RiskPerTrade, price, AllowsFractional(ClassOf(h.asset)));
    var cost := CostWithFee(q, price);
    if Valid(st) && q > 0.0 && cost <= st.cash {
      assert q * price > 0.0;
      StoredBlendValid(h.position, q, cost);
    }
  }

  /** A BUY executes only at or above the confidence threshold, with a
      positive quantity whose fee-inclusive cost the cash covers. Then the
      cash drops by exactly that cost and the position becomes the stored
      blend of the old position and the new lot, so the fee is part of the
      cost basis. Otherwise nothing changes. */
  lemma BuyOutcome(st: State, index: nat, signal: Signal, price: real, q: real, cost: real)
    requires index < |st.holdings| && price > 0.0
    requires st.holdings[index].position.quantity >= 0.0
    requires signal.decision == Buy
    requires q == BuyQuantity(st.cash * RiskPerTrade, price, AllowsFractional(ClassOf(st.holdings[index].asset)))
    requires cost == CostWithFee(q, price)
    ensures
      var r := Execute(st, index, signal, price);
      var executed := signal.confidence >= ConfidenceThreshold && q > 0.0 && cost <= st.cash;
      && (!executed ==> r == st)
      && (executed ==>
            && r.cash == st.cash - cost
            && r.cash >= 0.0
            && r.holdings[index].position == Stored(Blend(st.holdings[index].position, q, cost)))
  {
    var r := Execute(st, index, signal, price);
    if signal.confidence >= ConfidenceThreshold {
      assert r == ApplyBuy(st, index, price);
    } else {
      assert r == st;
    }
  }

  /** Closing ten units bought at 100 at a price of 120 adds 1198.8. */
  lemma SellExample()
    ensures
      var st := State(0.0, [Holding("AAPL", Position(10.0, 100.0))]);
      var r := Execute(st, 0, Signal(Sell, 50), 120.0);
      r.cash == 1198.8 && r.holdings[0].position == Flat
  {
  }

  /** The snapshot written to the state file. */
  datatype StateFile = StateFile(availableCash: real, portfolio: seq<Holding>)

  /** Saving rounds the cash to cents and writes the positions as they are:
      the saved cash is within half a cent of the cash and stays
      non-negative. */
  function Save(st: State): (f: StateFile)
    ensures Within(f.availableCash, st.cash, 0.005)
    ensures st.cash >= 0.0 ==> f.availableCash >= 0.0
    ensures f.portfolio == st.holdings
  {
    ScalesOfFourAndTwo();
    StateFile(Round(st.cash, 2), st.holdings)
  }

  /** Loading: the saved snapshot when the file exists, the fresh state of the
      whole universe otherwise. */
  function Load(file: Option<StateFile>): (st: State)
    ensures file.None? ==> st == FreshState(AllAssets)
    ensures file.Some? ==> st.cash == file.value.availableCash && st.holdings == file.value.portfolio
  {
    match file
    case None => FreshState(AllAssets)
    case Some(f) => State(f.availableCash, f.portfolio)
  }

  /** Saving and loading gives back the positions unchanged and the cash
      rounded to cents; the state comes back identical exactly when its cash
      was already a whole number of cents. A valid state reloads valid. */
  lemma SaveLoadRoundTrip(st: State)
    ensures Load(Some(Save(st))) == st.(cash := Round(st.cash, 2))
    ensures Load(Some(Save(st))) == st <==> (st.cash * 100.0).Floor as real == st.cash * 100.0
    ensures Valid(st) ==> Valid(Load(Some(Save(st))))
  {
    RoundFixedPoint(st.cash, 2);
    assert Scale(2) == 100.0 by {
      assert Pow10(2) == 100 by { assert Pow10(1) == 10; }
    }
    if st.cash >= 0.0 {
    }
  }
}

=== FILE: records.dfy ===
/** Values that flow between the engines and the trade log they write. */
module Records {

  /** The three signals a run can emit for an asset. */
  datatype Decision = Buy | Sell | Hold

  /** A decision paired with its integer confidence score. */
  datatype Signal = Signal(decision: Decision, confidence: int)

  /** The two kinds of tradable asset in the universe. */
  datatype AssetClass = Stock | Etf

  /** A log time stamp written as "%Y-%m-%d %H:%M": the calendar day (as a
      day number) and the minute within that day. */
  datatype Stamp = Stamp(day: int, minute: int)

  /** One row of the trade history: date, asset, asset_type, decision,
      confidence, price. */
  datatype TradeRecord = TradeRecord(
    stamp: Stamp,
    asset: string,
    assetClass: AssetClass,
    decision: Decision,
    confidence: int,
    price: real)
}

=== FILE: run.dfy ===
/** One run of the fee-aware bot over its universe: each asset in turn is
    backtested, scored, traded on paper and logged, and an asset that cannot
    be processed is skipped without touching the state. */
module Run {
  import opened Wrappers
  import opened Numeric
  import opened Records
  import opened Signals
  import opened Backtest
  import opened Portfolio
  import TradeLog

  /** Fewest rows of history an asset needs to be processed. */
  const MinHistory: nat := 60

  /** What the market-data provider returned for one asset: its rows with
      indicators, or nothing when the download failed or had no close. */
  datatype AssetInput = AssetInput(symbol: string, history: Option<seq<Bar>>)

  predicate Usable(input: AssetInput)
  {
    input.history.Some? && |input.history.value| >= MinHistory
  }

  /** The latest close of a usable history is a positive price. */
  predicate Priced(input: AssetInput)
  {
    Usable(input) ==> input.history.value[|input.history.value| - 1].close > 0.0
  }

  /** The newest row of a usable history. */
  function LatestBar(input: AssetInput): Bar
    requires Usable(input)
  {
    input.history.value[|input.history.value| - 1]
  }

  /** The bot's verdict on an asset: the latest row scored and weighted by
      the accuracies the backtest measured on the whole history. */
  function Verdict(input: AssetInput): Option<Signal>
    requires Usable(input)
  {
    var acc := BacktestAccuracies(input.history.value);
    Decide(LatestBar(input), acc.buy, acc.sell)
  }

  /** The run logs a row for an asset exactly when its history is long
      enough, its latest row has every indicator and it is a portfolio key. */
  predicate Logs(h: seq<Holding>, input: AssetInput)
  {
    Usable(input) && Complete(LatestBar(input)) && IndexOf(h, input.symbol).Some?
  }

  /** The per-asset pipeline. The state changes only through the paper trade
      of this asset, and the trade and its log row happen together or not at
      all: a short history, an undefined indicator in the latest row or an
      asset missing from the portfolio leaves the state as it was and logs
      nothing. */
  function ProcessAsset(st: State, input: AssetInput, stamp: Stamp): (r: (State, Option<TradeRecord>))
    requires Valid(st) && Priced(input)
    ensures Valid(r.0)
    ensures SameAssets(st.holdings, r.0.holdings)
    ensures r.1.None? ==> r.0 == st
    ensures forall k :: 0 <= k < |st.holdings| && st.holdings[k].asset != input.symbol ==>
      r.0.holdings[k] == st.holdings[k]
    ensures r.1.Some? <==> Logs(st.holdings, input)
    ensures r.1.Some? ==>
      && r.1.value.stamp == stamp
      && r.1.value.asset == input.symbol
      && r.1.value.assetClass == ClassOf(input.symbol)
      && 0 <= r.1.value.confidence <= 75
      && r.1.value.price == Round(LatestBar(input).close, 2)
    ensures r.1.Some? ==>
      && Verdict(input).Some?
      && r.1.value.decision == Verdict(input).value.decision
      && r.1.value.confidence == Verdict(input).value.confidence
      && r.0 == Execute(st, IndexOf(st.holdings, input.symbol).value, Verdict(input).value, LatestBar(input).close)
  {
    if !Usable(input) then (st, None)
    else
      var latest := LatestBar(input);
      match Verdict(input)
      case None => (st, None)
      case Some(signal) =>
        match IndexOf(st.holdings, input.symbol)
        case None => (st, None)
        case Some(i) =>
          var record := TradeRecord(stamp, input.symbol, ClassOf(input.symbol), signal.decision,
                                    signal.confidence, Round(latest.close, 2));
          (Execute(st, i, signal, latest.close), Some(record))
  }

  function Logged(r: Option<TradeRecord>): seq<TradeRecord>
  {
    if r.Some? then [r.value] else []
  }

  predicate AllPriced(inputs: seq<AssetInput>)
  {
    forall j :: 0 <= j < |inputs| ==> Priced(inputs[j])
  }

  /** The assets a run over `inputs` logs, in input order. */
  function LoggedAssets(h: seq<Holding>, inputs: seq<AssetInput>): seq<string>
  {
    if |inputs| == 0 then []
    else (if Logs(h, inputs[0]) then [inputs[0].symbol] else []) + LoggedAssets(h, inputs[1..])
  }

  /** Which assets are logged depends only on the portfolio's keys. */
  lemma {:induction false} LoggedAssetsSameKeys(h: seq<Holding>, h': seq<Holding>, inputs: seq<AssetInput>)
    requires SameAssets(h, h')
    ensures LoggedAssets(h, inputs) == LoggedAssets(h', inputs)
  {
    if |inputs| > 0 {
      IndexOfSameAssets(h, h', inputs[0].symbol);
      LoggedAssetsSameKeys(h, h', inputs[1..]);
    }
  }

  lemma AssetColumnAppend(a: seq<TradeRecord>, b: seq<TradeRecord>)
    ensures TradeLog.AssetColumn(a + b) == TradeLog.AssetColumn(a) + TradeLog.AssetColumn(b)
  {
    var l, r := TradeLog.AssetColumn(a + b), TradeLog.AssetColumn(a) + TradeLog.AssetColumn(b);
    assert |l| == |r|;
    forall i | 0 <= i < |l|
      ensures l[i] == r[i]
    {
      if i < |a| {
        assert (a + b)[i] == a[i];
      } else {
        assert (a + b)[i] == b[i - |a|];
      }
    }
  }

  /** The main loop over the universe, in order. The state invariant holds
      after every asset, the portfolio keys never change, assets the run does
      not visit keep their positions, and the log holds at most one row per
      asset, each for a visited asset with a confidence in [0, 75]. */
  function RunAll(st: State, inputs: seq<AssetInput>, stamp: Stamp): (r: (State, seq<TradeRecord>))
    requires Valid(st) && AllPriced(inputs)
    decreases |inputs|
    ensures Valid(r.0)
    ensures SameAssets(st.holdings, r.0.holdings)
    ensures |r.1| <= |inputs|
    ensures forall k :: 0 <= k < |st.holdings| && (forall j :: 0 <= j < |inputs| ==> inputs[j].symbol != st.holdings[k].asset) ==>
      r.0.holdings[k] == st.holdings[k]
    ensures forall t :: 0 <= t < |r.1| ==>
      && 0 <= r.1[t].confidence <= 75
      && exists j :: 0 <= j < |inputs| && inputs[j].symbol == r.1[t].asset
    ensures TradeLog.AssetColumn(r.1) == LoggedAssets(st.holdings, inputs)
  {
    if |inputs| == 0 then (st, [])
    else
      var first := ProcessAsset(st, inputs[0], stamp);
      assert Valid(first.0);
      assert AllPriced(inputs[1..]) by {
        forall j | 0 <= j < |inputs[1..]|
          ensures Priced(inputs[1..][j])
        {
          assert inputs[1..][j] == inputs[j + 1];
        }
      }
      var rest := RunAll(first.0, inputs[1..], stamp);
      var log := Logged(first.1) + rest.1;
      UnvisitedUnchanged(st, first.0, rest.0, inputs);
      LogFromInputs(first.1, rest.1, inputs);
      LoggedAssetsSameKeys(st.holdings, first.0.holdings, inputs[1..]);
      AssetColumnAppend(Logged(first.1), rest.1);
      (rest.0, log)
  }

  lemma UnvisitedUnchanged(st: State, mid: State, last: State, inputs: seq<AssetInput>)
    requires |inputs| > 0
    requires SameAssets(st.holdings, mid.holdings) && SameAssets(mid.holdings, last.holdings)
    requires forall k :: 0 <= k < |st.holdings| && st.holdings[k].asset != inputs[0].symbol ==>
      mid.holdings[k] == st.holdings[k]
    requires forall k :: 0 <= k < |mid.holdings| && (forall j :: 0 <= j < |inputs[1..]| ==> inputs[1..][j].symbol != mid.holdings[k].asset) ==>
      last.holdings[k] == mid.holdings[k]
    ensures SameAssets(st.holdings, last.holdings)
    ensures forall k :: 0 <= k < |st.holdings| && (forall j :: 0 <= j < |inputs| ==> inputs[j].symbol != st.holdings[k].asset) ==>
      last.holdings[k] == st.holdings[k]
  {
    forall k | 0 <= k < |st.holdings| && (forall j :: 0 <= j < |inputs| ==> inputs[j].symbol != st.holdings[k].asset)
      ensures last.holdings[k] == st.holdings[k]
    {
      assert inputs[0].symbol != st.holdings[k].asset;
      assert mid.holdings[k] == st.holdings[k];
      forall j | 0 <= j < |inputs[1..]|
        ensures inputs[1..][j].symbol != mid.holdings[k].asset
      {
        assert inputs[1..][j] == inputs[j + 1];
      }
    }
  }

  lemma LogFromInputs(first: Option<TradeRecord>, rest: seq<TradeRecord>, inputs: seq<AssetInput>)
    requires |inputs| > 0
    requires first.Some? ==> first.value.asset == inputs[0].symbol && 0 <= first.value.confidence <= 75
    requires |rest| <= |inputs| - 1
    requires forall t :: 0 <= t < |rest| ==>
      && 0 <= rest[t].confidence <= 75
      && exists j :: 0 <= j < |inputs[1..]| && inputs[1..][j].symbol == rest[t].asset
    ensures |Logged(first) + rest| <= |inputs|
    ensures forall t :: 0 <= t < |Logged(first) + rest| ==>
      && 0 <= (Logged(first) + rest)[t].confidence <= 75
      && exists j :: 0 <= j < |inputs| && inputs[j].symbol == (Logged(first) + rest)[t].asset
  {
    var log := Logged(first) + rest;
    forall t | 0 <= t < |log|
      ensures 0 <= log[t].confidence <= 75
      ensures exists j :: 0 <= j < |inputs| && inputs[j].symbol == log[t].asset
    {
      var n := |Logged(first)|;
      if t < n {
        assert log[t] == first.value;
        assert inputs[0].symbol == log[t].asset;
      } else {
        assert log[t] == rest[t - n];
        var j :| 0 <= j < |inputs[1..]| && inputs[1..][j].symbol == rest[t - n].asset;
        assert inputs[j + 1].symbol == log[t].asset;
      }
    }
  }
}

=== FILE: signals.dfy ===
/** Rule scoring and the backtest-weighted decision of the fee-aware engine. */
module Signals {
  import opened Wrappers
  import opened Numeric
  import opened Records

  /** Points a satisfied rule adds to its side. */
  const RulePoints := 25

  /** The indicator columns of one row of an asset's history. A `None` is a
      value pandas reports as NaN because its window has not filled yet. */
  datatype Bar = Bar(
    close: real,
    rsi: Option<real>,
    ema20: Option<real>,
    ema50: Option<real>,
    macd: Option<real>,
    macdSignal: Option<real>)

  /** The columns checked for NaN before a row is scored. The MACD signal
      line is not among them. */
  predicate Complete(b: Bar)
  {
    b.rsi.Some? && b.ema20.Some? && b.ema50.Some? && b.macd.Some?
  }

  /** Python's `x > y` when `y` may be NaN: every comparison with NaN is
      false. */
  predicate Above(x: real, y: Option<real>)
  {
    y.Some? && x > y.value
  }

  /** Unweighted buy and sell points. */
  datatype Scores = Scores(buy: int, sell: int)

  function Add(a: Scores, b: Scores): Scores
  {
    Scores(a.buy + b.buy, a.sell + b.sell)
  }

  /** The three rules of the scorer. */
  datatype Check = RsiCheck | EmaCheck | MacdCheck

  /** The rule table: which side each rule feeds, taken one rule at a time.
      An oversold RSI (below 30) votes buy and an overbought one (above 70)
      votes sell; EMA20 above EMA50 votes buy and otherwise sell; MACD above
      its signal line votes buy and otherwise sell. */
  function Vote(b: Bar, c: Check): (v: Scores)
    requires Complete(b)
    ensures v.buy == 0 || v.sell == 0
    ensures c != RsiCheck ==> v.buy + v.sell == RulePoints
  {
    match c
    case RsiCheck =>
      if b.rsi.value < 30.0 then Scores(RulePoints, 0)
      else if b.rsi.value > 70.0 then Scores(0, RulePoints)
      else Scores(0, 0)
    case EmaCheck =>
      if b.ema20.value > b.ema50.value then Scores(RulePoints, 0) else Scores(0, RulePoints)
    case MacdCheck =>
      if Above(b.macd.value, b.macdSignal) then Scores(RulePoints, 0) else Scores(0, RulePoints)
  }

  /** The three rule checks applied one after the other: RSI below 30 or
      above 70, EMA20 against EMA50, MACD against its signal line. Each side
      gets 0, 25, 50 or 75 points. */
  function RuleScores(b: Bar): (s: Scores)
    requires Complete(b)
    ensures 0 <= s.buy <= 3 * RulePoints && s.buy % RulePoints == 0
    ensures 0 <= s.sell <= 3 * RulePoints && s.sell % RulePoints == 0
  {
    var rsi := b.rsi.value;
    var buy1 := if rsi < 30.0 then RulePoints else 0;
    var sell1 := if rsi > 70.0 then RulePoints else 0;
    var emaUp := b.ema20.value > b.ema50.value;
    var buy2 := if emaUp then buy1 + RulePoints else buy1;
    var sell2 := if emaUp then sell1 else sell1 + RulePoints;
    var macdUp := Above(b.macd.value, b.macdSignal);
    var buy3 := if macdUp then buy2 + RulePoints else buy2;
    var sell3 := if macdUp then sell2 else sell2 + RulePoints;
    Scores(buy3, sell3)
  }

  /** The scorer adds up the rule table: each side's points are exactly the
      votes the three rules cast for it. */
  lemma RuleScoresAreVotes(b: Bar)
    requires Complete(b)
    ensures RuleScores(b) == Add(Add(Vote(b, RsiCheck), Vote(b, EmaCheck)), Vote(b, MacdCheck))
  {
    var r, e, m := Vote(b, RsiCheck), Vote(b, EmaCheck), Vote(b, MacdCheck);
    var s := RuleScores(b);
    assert s.buy == r.buy + e.buy + m.buy;
    assert s.sell == r.sell + e.sell + m.sell;
    assert Add(Add(r, e), m) == Scores(r.buy + e.buy + m.buy, r.sell + e.sell + m.sell);
    assert s == Scores(s.buy, s.sell);
  }

  /** The two sides together hold 75 points when the RSI rule fires and 50
      otherwise, since the RSI rule votes for at most one side and each
      crossover rule for exactly one. */
  lemma RuleScoresTotal(b: Bar)
    requires Complete(b)
    ensures RuleScores(b).buy + RuleScores(b).sell ==
      (if b.rsi.value < 30.0 || b.rsi.value > 70.0 then 3 * RulePoints else 2 * RulePoints)
  {
    RuleScoresAreVotes(b);
  }

  /** A side's score multiplied by the backtested accuracy of that side. */
  function Weighted(points: int, accuracy: real): real
  {
    points as real * accuracy
  }

  /** A weight in [0, 1] keeps a side's score within [0, 75]. */
  lemma WeightedBound(points: int, accuracy: real)
    ensures 0 <= points <= 75 && 0.0 <= accuracy <= 1.0 ==> 0.0 <= Weighted(points, accuracy) <= 75.0
  {
    if 0 <= points <= 75 && 0.0 <= accuracy <= 1.0 {
      var p := points as real;
      assert 0.0 <= p <= 75.0;
      MulBetween(p, accuracy);
      assert Weighted(points, accuracy) == p * accuracy;
    }
  }

  lemma MulBetween(p: real, a: real)
    requires 0.0 <= p <= 75.0 && 0.0 <= a <= 1.0
    ensures 0.0 <= p * a <= 75.0
  {
    if p > 0.0 {
      MulMonotone(0.0, a, p);
      MulMonotone(a, 1.0, p);
      assert a * p <= 1.0 * p;
      assert 1.0 * p == p;
      assert a * p <= p;
      assert p * a == a * p;
      assert p * a <= p;
    }
  }

  /** Today's decision for an asset from its latest row and the backtested
      accuracies, or `None` when the row still has an undefined indicator and
      the asset is skipped. */
  function Decide(latest: Bar, buyAccuracy: real, sellAccuracy: real): (r: Option<Signal>)
    ensures r.None? <==> !Complete(latest)
    ensures r.Some? ==>
      var wb := Weighted(RuleScores(latest).buy, buyAccuracy);
      var ws := Weighted(RuleScores(latest).sell, sellAccuracy);
      && (r.value.decision == Buy <==> wb > ws)
      && (r.value.decision == Sell <==> ws > wb)
      && (r.value.decision == Buy ==> r.value.confidence == Trunc(wb))
      && (r.value.decision == Sell ==> r.value.confidence == Trunc(ws))
      && (r.value.decision == Hold ==> r.value.confidence == 0)
    ensures r.Some? && 0.0 <= buyAccuracy <= 1.0 && 0.0 <= sellAccuracy <= 1.0 ==>
      0 <= r.value.confidence <= 75
  {
    if !Complete(latest) then None
    else
      var s := RuleScores(latest);
      var buyConf := Weighted(s.buy, buyAccuracy);
      var sellConf := Weighted(s.sell, sellAccuracy);
      WeightedBound(s.buy, buyAccuracy);
      WeightedBound(s.sell, sellAccuracy);
      if buyConf > sellConf then Some(Signal(Buy, Trunc(buyConf)))
      else if sellConf > buyConf then Some(Signal(Sell, Trunc(sellConf)))
      else Some(Signal(Hold, 0))
  }
}

=== FILE: trade_log.dfy ===
/** Read-only views of the trade history that the dashboard serves: the most
    recent rows, the rows of one asset, and the list of traded assets. */
module TradeLog {
  import opened Records
  import opened Lexicographic

  /** The last `k` elements of `xs`, or all of them when there are fewer:
      pandas' `tail(k)` and Python's `xs[-k:]` guarded by `len(xs) > k`. */
  function Tail<T>(xs: seq<T>, k: nat): (r: seq<T>)
    ensures |r| == if |xs| < k then |xs| else k
    ensures r == xs[|xs| - |r|..]
  {
    if |xs| > k then xs[|xs| - k..] else xs
  }

  /** Appending to a truncated window and truncating again gives the same
      window as truncating the whole sequence: the window only ever depends
      on the last `k` elements. */
  lemma TailOfAppend<T>(xs: seq<T>, ys: seq<T>, k: nat)
    ensures Tail(Tail(xs, k) + ys, k) == Tail(xs + ys, k)
  {
    if |xs| > k {
      var d := |xs| - k;
      assert Tail(xs, k) + ys == (xs + ys)[d..];
      TailOfSuffix(xs + ys, d, k);
    } else {
      assert Tail(xs, k) == xs;
    }
  }

  /** A suffix that still holds at least `k` elements has the same window. */
  lemma TailOfSuffix<T>(s: seq<T>, d: nat, k: nat)
    requires d <= |s| && |s| - d >= k
    ensures Tail(s[d..], k) == Tail(s, k)
  {
    if |s| - d > k {
      assert s[d..][|s| - d - k..] == s[|s| - k..];
    } else {
      assert |s[d..]| == k;
    }
  }

  const RecentLimit: nat := 100

  /** The trade-history view: the last 100 rows in file order. */
  function RecentTrades(log: seq<TradeRecord>): (r: seq<TradeRecord>)
    ensures |r| <= RecentLimit
    ensures |log| <= RecentLimit ==> r == log
    ensures |log| > RecentLimit ==> |r| == RecentLimit && log == log[..|log| - RecentLimit] + r
  {
    var r := Tail(log, RecentLimit);
    assert |log| > RecentLimit ==> log == log[..|log| - RecentLimit] + r;
    r
  }

  /** The rows of one asset in file order. */
  function ForAsset(log: seq<TradeRecord>, asset: string): (r: seq<TradeRecord>)
    ensures |r| <= |log|
    ensures forall t :: t in r ==> t in log && t.asset == asset
    ensures forall t :: t in log && t.asset == asset ==> t in r
  {
    if |log| == 0 then []
    else
      var rest := ForAsset(log[1..], asset);
      assert forall t :: t in log ==> t == log[0] || t in log[1..];
      if log[0].asset == asset then [log[0]] + rest else rest
  }

  /** Filtering distributes over concatenation, so the relative order of an
      asset's rows is the order of the file. */
  lemma {:induction false} ForAssetAppend(xs: seq<TradeRecord>, ys: seq<TradeRecord>, asset: string)
    ensures ForAsset(xs + ys, asset) == ForAsset(xs, asset) + ForAsset(ys, asset)
  {
    if |xs| > 0 {
      assert (xs + ys)[1..] == xs[1..] + ys;
      ForAssetAppend(xs[1..], ys, asset);
    } else {
      assert xs + ys == ys;
    }
  }

  function AssetColumn(log: seq<TradeRecord>): (r: seq<string>)
    ensures |r| == |log|
    ensures forall i :: 0 <= i < |log| ==> r[i] == log[i].asset
  {
    if |log| == 0 then [] else [log[0].asset] + AssetColumn(log[1..])
  }

  /** The assets view: every asset that appears in the history, once each,
      in ascending string order. */
  function TradedAssets(log: seq<TradeRecord>): (r: seq<string>)
    ensures StrictlyAscending(r)
    ensures forall a :: a in r <==> exists i :: 0 <= i < |log| && log[i].asset == a
    ensures forall i, j :: 0 <= i < j < |r| ==> r[i] != r[j]
  {
    var column := AssetColumn(log);
    var r := SortedUnique(column);
    assert forall a :: a in r <==> a in Elements(r);
    assert forall a :: a in column <==> exists i :: 0 <= i < |log| && log[i].asset == a;
    AscendingIsDistinct(r);
    r
  }
}

=== FILE: valuation.dfy ===
/** The end-of-run valuation of the fee-aware bot: one detail row per open
    position at its latest price, and a one-row summary of cash, money
    invested, portfolio value and profit against the initial capital. */
module Valuation {
  import opened Wrappers
  import opened Numeric
  import opened Records
  import opened Portfolio

  datatype Detail = Detail(
    asset: string,
    assetClass: AssetClass,
    quantity: real,
    averagePrice: real,
    currentPrice: real,
    investedValue: real,
    currentValue: real,
    profit: real,
    returnPct: real)

  datatype Summary = Summary(availableCash: real, totalInvested: real, portfolioValue: real, totalProfit: real)

  datatype Report = Report(details: seq<Detail>, summary: Summary)

  /** The valuation visits only entries whose quantity is not zero. */
  predicate IsOpen(h: Holding)
  {
    h.position.quantity != 0.0
  }

  function OpenHoldings(h: seq<Holding>): (r: seq<Holding>)
    ensures |r| <= |h|
    ensures forall k :: 0 <= k < |r| ==> IsOpen(r[k]) && r[k] in h
    ensures forall k :: 0 <= k < |h| && IsOpen(h[k]) ==> h[k] in r
  {
    if |h| == 0 then []
    else if IsOpen(h[0]) then [h[0]] + OpenHoldings(h[1..])
    else OpenHoldings(h[1..])
  }

  /** Money invested: quantity times average price, summed over the open
      positions in portfolio order. */
  function Invested(h: seq<Holding>): real
  {
    if |h| == 0 then 0.0
    else if IsOpen(h[0]) then h[0].position.quantity * h[0].position.averagePrice + Invested(h[1..])
    else Invested(h[1..])
  }

  /** Market value: quantity times the latest price, summed over the open
      positions. */
  function CurrentValue(h: seq<Holding>, quote: string -> real): real
  {
    if |h| == 0 then 0.0
    else if IsOpen(h[0]) then h[0].position.quantity * quote(h[0].asset) + CurrentValue(h[1..], quote)
    else CurrentValue(h[1..], quote)
  }

  /** Market value summed over every entry, closed ones included. */
  function MarketValueOfAll(h: seq<Holding>, quote: string -> real): real
  {
    if |h| == 0 then 0.0
    else h[0].position.quantity * quote(h[0].asset) + MarketValueOfAll(h[1..], quote)
  }

  /** Skipping the flat entries loses nothing: they are worth zero. */
  lemma {:induction false} SkippingFlatIsExact(h: seq<Holding>, quote: string -> real)
    ensures CurrentValue(h, quote) == MarketValueOfAll(h, quote)
  {
    if |h| > 0 {
      SkippingFlatIsExact(h[1..], quote);
      if !IsOpen(h[0]) {
        assert h[0].position.quantity * quote(h[0].asset) == 0.0;
      }
    }
  }

  /** What a detail row reports about an open position at a price: the
      asset, its class, the quantity and average price as held, and the
      price, money invested, market value, profit and return in percent,
      each rounded to within half a cent of the exact figure. */
  predicate Reports(d: Detail, h: Holding, price: real)
    requires IsOpen(h) && !ZeroCostBasis(h)
  {
    var invested := h.position.quantity * h.position.averagePrice;
    var current := h.position.quantity * price;
    && d.asset == h.asset
    && d.assetClass == ClassOf(h.asset)
    && d.quantity == h.position.quantity
    && d.averagePrice == h.position.averagePrice
    && Within(d.currentPrice, price, 0.005)
    && Within(d.investedValue, invested, 0.005)
    && Within(d.currentValue, current, 0.005)
    && Within(d.profit, current - invested, 0.005)
    && Within(d.returnPct, (current - invested) / invested * 100.0, 0.005)
  }

  /** One detail row. The figures are rounded to cents, and the return in
      percent divides the profit by the money invested. */
  function DetailOf(h: Holding, price: real): (d: Detail)
    requires IsOpen(h) && !ZeroCostBasis(h)
    ensures Reports(d, h, price)
  {
    var invested := h.position.quantity * h.position.averagePrice;
    var current := h.position.quantity * price;
    var profit := current - invested;
    CentsError(invested);
    CentsError(current);
    CentsError(profit);
    CentsError(price);
    CentsError((profit / invested) * 100.0);
    Detail(h.asset, ClassOf(h.asset), h.position.quantity, h.position.averagePrice, Round(price, 2),
           Round(invested, 2), Round(current, 2), Round(profit, 2), Round((profit / invested) * 100.0, 2))
  }

  lemma CentsError(x: real)
    ensures Within(Round(x, 2), x, 0.005)
  {
    assert Scale(2) == 100.0 by {
      assert Pow10(2) == 100 by { assert Pow10(1) == 10; }
    }
  }

  /** An open entry whose money invested, quantity times average price, is
      zero: the return percentage divides by zero there and the valuation
      stops. The quantity of an open entry is not zero, so this is exactly a
      zero average price. */
  predicate ZeroCostBasis(h: Holding)
  {
    IsOpen(h) && h.position.averagePrice == 0.0
  }

  /** The detail rows, one per open position in portfolio order, or `None`
      when some open position has a zero cost basis. */
  function Details(h: seq<Holding>, quote: string -> real): (r: Option<seq<Detail>>)
    ensures r.None? <==> exists k :: 0 <= k < |h| && ZeroCostBasis(h[k])
    ensures r.Some? ==> Describes(r.value, OpenHoldings(h), quote)
  {
    if |h| == 0 then Some([])
    else
      var rest := Details(h[1..], quote);
      assert forall k :: 0 <= k < |h[1..]| ==> h[1..][k] == h[k + 1];
      assert (exists k :: 0 <= k < |h| && ZeroCostBasis(h[k])) <==>
             ZeroCostBasis(h[0]) || exists k :: 0 <= k < |h[1..]| && ZeroCostBasis(h[1..][k]);
      if !IsOpen(h[0]) then rest
      else if h[0].position.averagePrice == 0.0 then None
      else
        match rest
        case None => None
        case Some(ds) =>
          var d := DetailOf(h[0], quote(h[0].asset));
          DescribesCons(d, ds, h[0], OpenHoldings(h[1..]), quote);
          Some([d] + ds)
  }

  /** Row `k` is the detail row of the k-th open position at its latest
      price, so it reports that position as `Reports` states. */
  predicate Describes(ds: seq<Detail>, hs: seq<Holding>, quote: string -> real)
  {
    && |ds| == |hs|
    && forall k :: 0 <= k < |ds| ==>
         IsOpen(hs[k]) && !ZeroCostBasis(hs[k]) && ds[k] == DetailOf(hs[k], quote(hs[k].asset))
  }

  lemma DescribesCons(d: Detail, ds: seq<Detail>, x: Holding, hs: seq<Holding>, quote: string -> real)
    requires Describes(ds, hs, quote)
    requires IsOpen(x) && !ZeroCostBasis(x) && d == DetailOf(x, quote(x.asset))
    ensures Describes([d] + ds, [x] + hs, quote)
  {
    var l := [d] + ds;
    var m := [x] + hs;
    forall k | 0 <= k < |l|
      ensures IsOpen(m[k]) && !ZeroCostBasis(m[k]) && l[k] == DetailOf(m[k], quote(m[k].asset))
    {
      if k > 0 {
        assert l[k] == ds[k - 1] && m[k] == hs[k - 1];
      }
    }
  }

  /** Every row of a valuation reports its open position at its latest price. */
  lemma DescribedRowsReport(ds: seq<Detail>, hs: seq<Holding>, quote: string -> real)
    requires Describes(ds, hs, quote)
    ensures forall k :: 0 <= k < |ds| ==>
      IsOpen(hs[k]) && !ZeroCostBasis(hs[k]) && Reports(ds[k], hs[k], quote(hs[k].asset))
  {
  }

  /** The valuation of the final state at the latest prices. */
  function Valuate(st: State, quote: string -> real): (r: Option<Report>)
    ensures r.None? <==> exists k :: 0 <= k < |st.holdings| && ZeroCostBasis(st.holdings[k])
    ensures r.Some? ==> Describes(r.value.details, OpenHoldings(st.holdings), quote)
    ensures r.Some? ==>
      var s := r.value.summary;
      && Within(s.availableCash, st.cash, 0.005)
      && Within(s.totalInvested, Invested(st.holdings), 0.005)
      && Within(s.portfolioValue, st.cash + CurrentValue(st.holdings, quote), 0.005)
      && s.totalProfit == s.portfolioValue - InitialCapital
  {
    match Details(st.holdings, quote)
    case None => None
    case Some(ds) =>
      var value := st.cash + CurrentValue(st.holdings, quote);
      CentsError(st.cash);
      CentsError(Invested(st.holdings));
      CentsError(value);
      RoundCentsShift(value, 500000);
      assert value - InitialCapital == value - (2 * 500000) as real / 100.0;
      Some(Report(ds, Summary(Round(st.cash, 2), Round(Invested(st.holdings), 2), Round(value, 2),
                              Round(value - InitialCapital, 2))))
  }
}

=== FILE: wrappers.dfy ===
/** An optional value, used wherever the bot reads something that may be
    missing: an indicator that pandas reports as NaN, a dictionary key that is
    absent, a download that returned nothing. */
module Wrappers {

  datatype Option<+T> = None | Some(value: T) {

    /** The wrapped value, or `default` when there is none. */
    function GetOr(default: T): (r: T)
      ensures Some? ==> r == value
      ensures None? ==> r == default
    {
      match this
      case Some(v) => v
      case None => default
    }
  }
}
